=== FILE: README.md ===
# Breath-biomarker screening dashboard — verified model of its logic

The dashboard collects breath samples from four gas sensors (`s0`..`s3`), plus
breath temperature and humidity. It stores them, trains and applies a
placeholder classifier, and shows patients and live predictions. This project
models the parts of it that compute something, in Dafny, and proves what they
promise:

- **Ingest** (`ingest.dfy`, module `IngestSensorData`) — the
  `ingest-sensor-data` function. It covers the required-field check, the range
  checks in their fixed order, the anomaly list, the data-quality flags, the
  stored defaults and the read-increment-write of a data collection's sample
  counter. The collection row is a class.
- **Features** (`features.dfy`, module `Features`) — the `||`-defaulted feature
  vector and the capped random channel weights. Both the predictor and the
  trainer use them.
- **Predict** (`predict.dfy`, module `PredictCondition`) — the
  `predict-condition` function:
  - the threshold label and its confidence band;
  - the loop that hands out probability shares;
  - the in-place normalisation loop;
  - the sensor contributions.
- **Training** (`training.dfy`, module `MlTraining`) — the `ml-training`
  function's bookkeeping:
  - feature rows and labels;
  - the empty-data failure;
  - the ten-step progress loop on a session class;
  - metrics, de-duplicated labels, the confusion matrix and derived counts.
- **Demo store** (`demo_store.dfy`, module `DemoStore`) — demo mode of
  `src/lib/supabase.ts`. In that mode patients and sensor readings live in two
  module-level lists. Those are mutated in place by `unshift`, index assignment
  and `splice`; here they are the fields of a `Store` class.
- **Real-time predictor** (`realtime.dfy`, module `RealTimePredictor`) — one
  tick of the live panel:
  - biomarker drift with clamps;
  - the cumulative-weight pick loop with its early exit;
  - the confidence draw;
  - the ten-entry, newest-first history.
- **Patient list** (`patients.dfy`, module `PatientList`) — the
  case-insensitive search, the "shown of total" count and the avatar initials.

`common.dfy` (module `Common`) holds shared helpers: `Option`/`Result`, a JSON
value type, filtering, sub-sequences, de-duplication and sums.

Every `Math.random()` value, every `Date.now()` id and every timestamp is a
parameter of the model. The predictor's and the trainer's draws, and the
real-time confidence draw, are required to lie in [0, 1). The real-time pick
draw and the biomarker drift draws are unconstrained: the pick is defined for
every real, its band lemmas assume [0, 1], and the clamps hold whatever the
drift draws are.

## Behaviour worth noting

- A sensor value out of range gives one fixed message. The message does not
  name the channel or the value.
- The predictor does not validate its input at all. Missing or zero fields
  simply take their `||` defaults.
- A sensor feature is the raw value except that 0 and absent both give 0.
  Temperature 0 becomes 25 and humidity 0 becomes 50, so the features are not
  the identity on readings.

## Model

| member | source | states |
|---|---|---|
| IngestSensorData.MissingFields | supabase/functions/ingest-sensor-data/index.ts:49-50 | a field is reported missing iff it is required and absent, in the fixed order s0, s1, s2, s3, temp, humidity |
| IngestSensorData.NoneMissingIffAllPresent | supabase/functions/ingest-sensor-data/index.ts:49-52 | the missing list is empty iff all six fields are present |
| IngestSensorData.Validate | supabase/functions/ingest-sensor-data/index.ts:49-106 | checks run fields, then sensors, then temperature, then humidity, and the first failure decides the error. A reading is accepted iff all four channels are numbers in [0,1023], temp a number in [-40,85] and humidity a number in [0,100], bounds inclusive. The accepted reading carries the input numbers |
| IngestSensorData.AcceptedIsInBounds | supabase/functions/ingest-sensor-data/index.ts:66-106 | every accepted reading has its channels, temperature and humidity inside the inclusive bounds |
| IngestSensorData.Anomalies | supabase/functions/ingest-sensor-data/index.ts:151-167 | the anomalies of a reading are the fixed messages, in the fixed order, filtered by their tests: each message is in the list iff its condition holds (a channel > 900; temp < 30 or > 40; humidity < 60 or > 95), and the list is empty iff no condition holds |
| IngestSensorData.DetectAnomalies | supabase/functions/ingest-sensor-data/index.ts:151-167 | the three conditional pushes build exactly the specified anomaly list |
| IngestSensorData.Reported | supabase/functions/ingest-sensor-data/index.ts:174 | an empty anomaly list is reported as null, any other list as itself |
| IngestSensorData.Quality | supabase/functions/ingest-sensor-data/index.ts:175-178 | sensorRange iff every channel is in [0,1023]; temperatureRange is false exactly when the temperature anomaly is raised; humidityRange is false exactly when the humidity anomaly is raised |
| IngestSensorData.AcceptedHasSensorRange | supabase/functions/ingest-sensor-data/index.ts:66-81 | sensorRange is true for every accepted reading |
| IngestSensorData.DurationOrDefault | supabase/functions/ingest-sensor-data/index.ts:116 | the stored duration is the given value, or 5 when it is absent or 0 |
| IngestSensorData.EnvironmentOrEmpty | supabase/functions/ingest-sensor-data/index.ts:115 | environmental data defaults to the empty object |
| IngestSensorData.NextSampleCount | supabase/functions/ingest-sensor-data/index.ts:135 | the sample count goes up by exactly one, and a missing count counts as 0 |
| IngestSensorData.CollectionProgress | supabase/functions/ingest-sensor-data/index.ts:136 | progress is at most 100, never negative for a non-negative count, and reaches 100 iff the count does |
| IngestSensorData.DataCollection.constructor | supabase/functions/ingest-sensor-data/index.ts:126-132 | the collection row holds the fields read from the store |
| IngestSensorData.DataCollection.RecordSample | supabase/functions/ingest-sensor-data/index.ts:134-148 | writes the incremented count and its capped progress. Status becomes 'completed', with the completion time, iff progress reaches 100; otherwise status and completion time are left as they were |
| IngestSensorData.Ingest | supabase/functions/ingest-sensor-data/index.ts:49-179 | a request fails iff validation fails, with validation's error, and then the collection is untouched. On success it stores the defaulted reading, reports exactly the specified anomalies (null when there are none) and the quality flags with sensorRange true, and writes the incremented count and its progress to the collection; status becomes 'completed' with the completion time iff the count reaches 100, and is left as it was otherwise |
| Features.OrDefault | supabase/functions/predict-condition/index.ts:77-82 | a feature is the field's value when it is present and non-zero, otherwise the fallback |
| Features.Extract | supabase/functions/predict-condition/index.ts:76-83 | sensors default to 0, temperature to 25, humidity to 50 |
| Features.ZeroIsReplacedByDefault | supabase/functions/predict-condition/index.ts:81-82 | a real temperature of 0 gives 25 exactly as if the field were absent, whatever the humidity; likewise a real humidity of 0 gives 50, whatever the temperature |
| Features.SensorFeatureIsValueOrZero | supabase/functions/predict-condition/index.ts:77-80 | a sensor feature is the value when present and 0 when absent |
| Features.DrawWeights | supabase/functions/predict-condition/index.ts:124-131 | each contribution lies in [0, cap) with caps 0.3, 0.25, 0.2, 0.15, 0.05, 0.05. They are not normalised; their sum is below 1 |
| PredictCondition.TargetClasses | supabase/functions/predict-condition/index.ts:86 | the model's class list, or ['healthy','diabetes','copd'] when it has none |
| PredictCondition.PredictLabel | supabase/functions/predict-condition/index.ts:93-103 | first match wins: 'diabetes' iff s0 > 600 or s1 > 500; 'copd' iff not diabetes and (s2 > 400 or s3 > 700); 'healthy' otherwise |
| PredictCondition.HighS0SelectsDiabetes | supabase/functions/predict-condition/index.ts:94-95 | a reading with s0 above 600 is labelled 'diabetes' whatever the other channels and draws |
| PredictCondition.BaseConfidence | supabase/functions/predict-condition/index.ts:96-102 | for a draw in [0,1), confidence is in [0.75,0.95) for diabetes, [0.70,0.95) for copd and [0.60,0.90) for healthy |
| PredictCondition.PutSpec | supabase/functions/predict-condition/index.ts:109-112 | a property assignment overwrites an existing key in place or appends a new one, changes no other key, and adjusts the total by the difference |
| PredictCondition.FillStepKeepsInvariant | supabase/functions/predict-condition/index.ts:107-115 | one iteration of the share loop keeps the loop invariant: keys are the distinct classes seen, scores are non-negative, remainingProb stays in (0, 1 − confidence], and the other classes' shares sum to at most 1 − confidence − remainingProb |
| PredictCondition.FillSpec | supabase/functions/predict-condition/index.ts:106-115 | after the loop the keys are exactly the distinct target classes in first-occurrence order. Every share is non-negative and remainingProb never goes negative. The non-predicted shares sum to at most 1 − confidence, and the predicted class, when listed, holds the confidence |
| PredictCondition.FillScores | supabase/functions/predict-condition/index.ts:106-115 | the share loop computes exactly the scores and remaining probability of the specification `Fill` |
| PredictCondition.ZeroDrawsKeepRemaining | supabase/functions/predict-condition/index.ts:111-113 | when every draw is 0 no share is taken and remainingProb stays 1 − confidence |
| PredictCondition.TotalScale | supabase/functions/predict-condition/index.ts:118-121 | dividing every score by t divides the total by t |
| PredictCondition.ScaleKeepsKeys | supabase/functions/predict-condition/index.ts:119-121 | normalisation keeps the keys and their order |
| PredictCondition.ScaleKeepsRanking | supabase/functions/predict-condition/index.ts:119-121 | dividing by a positive total keeps the order between every two classes' scores, in both directions |
| PredictCondition.ScaledTotalIsOne | supabase/functions/predict-condition/index.ts:118-121 | scores divided by their non-zero total sum to 1 |
| PredictCondition.ScaleNonNegative | supabase/functions/predict-condition/index.ts:119-121 | dividing non-negative scores by a positive total keeps them non-negative |
| PredictCondition.NormaliseSpecProperties | supabase/functions/predict-condition/index.ts:117-121 | when the total is positive, normalisation yields non-negative scores summing to 1, with the same keys and the same ranking |
| PredictCondition.Normalise | supabase/functions/predict-condition/index.ts:117-121 | on the non-negative scores the share loop produces, the in-place division loop computes the specification normalisation, with NaN for every key when the total is 0 |
| PredictCondition.ScoresAreDistribution | supabase/functions/predict-condition/index.ts:105-121 | when the predicted label is a listed class, the final scores are a distribution over exactly the distinct target classes |
| PredictCondition.UnlistedPredictionCanGiveNaN | supabase/functions/predict-condition/index.ts:86-121 | when the label is not among the classes and every draw is 0, the total is 0 and every score becomes NaN |
| PredictCondition.ReportedConfidenceBelowScore | supabase/functions/predict-condition/index.ts:109-121 | the reported confidence is the pre-normalisation value. When the label is listed, its normalised score is strictly greater than that confidence, so the two differ |
| PredictCondition.Predict | supabase/functions/predict-condition/index.ts:76-131 | the prediction's label, confidence, scores and contributions are those of the specification functions; confidence is in [0.6,0.95); the scores are a distribution over the classes whenever the label is listed |
| MlTraining.LabelOf | supabase/functions/ml-training/index.ts:83 | the patient's condition when it is a non-empty string, otherwise 'healthy' |
| MlTraining.FeatureRows | supabase/functions/ml-training/index.ts:74-85 | one feature row per reading, in the same order, with the reading's extracted features and label |
| MlTraining.FeatureRowDefaults | supabase/functions/ml-training/index.ts:77-83 | an absent temperature gives 25, an absent humidity 50, an absent sensor 0, and every label is non-empty |
| MlTraining.LabelColumn | supabase/functions/ml-training/index.ts:114 | the label of each row, in row order |
| MlTraining.DistinctLabels | supabase/functions/ml-training/index.ts:114 | the labels have no duplicates, hold exactly the labels that occur in some row, and keep first-occurrence order |
| MlTraining.Cell | supabase/functions/ml-training/index.ts:117 | every cell is an integer in [1,20] |
| MlTraining.ConfusionMatrix | supabase/functions/ml-training/index.ts:115-121 | the matrix is square over the labels; each cell is drawn for its position and lies in [1,20] |
| MlTraining.F1Symmetric | supabase/functions/ml-training/index.ts:101 | f1 does not depend on the order of precision and recall |
| MlTraining.F1AtLeastSmaller | supabase/functions/ml-training/index.ts:101 | the harmonic mean is at least the smaller of precision and recall |
| MlTraining.F1AtMostLarger | supabase/functions/ml-training/index.ts:101 | the harmonic mean is at most the larger of precision and recall |
| MlTraining.F1Between | supabase/functions/ml-training/index.ts:99-101 | f1 lies between precision and recall |
| MlTraining.Evaluate | supabase/functions/ml-training/index.ts:98-101 | accuracy is in [0.85,0.98), precision in [0.82,0.97), recall in [0.80,0.97), and f1 lies between precision and recall |
| MlTraining.ValidationCount | supabase/functions/ml-training/index.ts:153 | the validation count is floor(0.2·n), which lies in [0, n] |
| MlTraining.TrainingTime | supabase/functions/ml-training/index.ts:154 | the training time is an integer in [45,105) |
| MlTraining.ProgressSchedule | supabase/functions/ml-training/index.ts:88 | the progress values are 10, 20, …, 100: ten strictly increasing steps ending at 100 |
| MlTraining.TrainingSession.constructor | supabase/functions/ml-training/index.ts:34-45 | a new session is running at progress 0, with no updates and no results |
| MlTraining.TrainingSession.Fail | supabase/functions/ml-training/index.ts:62-70 | the session becomes failed with progress 0 and nothing else written |
| MlTraining.TrainingSession.RunProgressSchedule | supabase/functions/ml-training/index.ts:87-95 | the loop writes exactly the ten progress values in order and ends at 100; status and results are untouched |
| MlTraining.TrainingSession.Complete | supabase/functions/ml-training/index.ts:141-158 | the session becomes completed at progress 100 with the run's results and the completion time |
| MlTraining.Summarise | supabase/functions/ml-training/index.ts:97-157 | training_data_count = n and validation_data_count = floor(0.2·n), between 0 and n; the metrics, training time, feature importance and confusion matrix are those drawn by Evaluate, TrainingTime, DrawWeights and ConfusionMatrix; training time in [45,105); the labels are the distinct labels of the feature rows, and the matrix is square over them |
| MlTraining.TrainModel | supabase/functions/ml-training/index.ts:62-157 | no model is created iff the data is missing or empty, and then the session fails at progress 0. Otherwise the session runs the ten progress steps, completes at 100 with its summary and the completion time, and the model records accuracy, 0.95·accuracy as validation accuracy, the feature names and the labels as target classes |
| MlTraining.ValidationAccuracyBelowTraining | supabase/functions/ml-training/index.ts:98-132 | the validation accuracy is strictly below the training accuracy and above 0.8 |
| DemoStore.IsDemo | src/lib/supabase.ts:3-7 | demo mode is on iff the URL or the anon key is missing or empty |
| DemoStore.FindIndex | src/lib/supabase.ts:147 | -1 iff no record has the id, otherwise the first record with it |
| DemoStore.Merge | src/lib/supabase.ts:149 | the merged record has the keys of both, update fields win, and old fields not updated stay |
| DemoStore.UpdateFirst | src/lib/supabase.ts:147-150 | only the first record with the id is replaced, by its merge with the update; the length is unchanged and every other record is untouched; an unknown id changes nothing |
| DemoStore.RemoveFirst | src/lib/supabase.ts:165-168 | only the first record with the id is removed; records before and after it keep their order; an unknown id changes nothing |
| DemoStore.RemoveFirstRemovesOneMatch | src/lib/supabase.ts:163-169 | records with other ids are all kept in order, and the number of records with the id drops by exactly one when there was one |
| DemoStore.ForPatient | src/lib/supabase.ts:179-185 | a missing or empty patient id keeps every record; any other id keeps exactly that patient's records in their original order, each as many times as it occurs |
| DemoStore.Predictions | src/lib/supabase.ts:276-286 | the mock predictions, filtered by patient id in the same way, in order |
| DemoStore.PredictionsOfFirstPatient | src/lib/supabase.ts:278-285 | asking for patient '1' returns just its one prediction |
| DemoStore.Store.constructor | src/lib/supabase.ts:105-115 | the store starts with the four mock patients and two mock readings |
| DemoStore.Store.GetPatients | src/lib/supabase.ts:119-122 | returns the live patient list, with every earlier create, update and delete applied |
| DemoStore.Store.CreatePatient | src/lib/supabase.ts:131-135 | the new record is the patient with fresh id and creation time; it is put at index 0 and the earlier records follow unchanged and in order |
| DemoStore.Store.UpdatePatient | src/lib/supabase.ts:145-152 | the list becomes the first-match update. A known id returns the merged record and no error; an unknown id returns no data, the error 'Patient not found', and leaves the list unchanged |
| DemoStore.Store.DeletePatient | src/lib/supabase.ts:163-169 | the list loses only its first record with the id, and the error is null in every case |
| DemoStore.Store.GetSensorReadings | src/lib/supabase.ts:179-185 | returns the stored readings filtered as ForPatient states |
| DemoStore.Store.CreateSensorReading | src/lib/supabase.ts:203-207 | the new reading, with fresh id and timestamp, is put at the front; the patients are untouched |
| DemoStore.CreatedPatientIsFoundFirst | src/lib/supabase.ts:133-134 | a freshly created patient is the first record found under its id |
| DemoStore.UpdateKeepsPosition | src/lib/supabase.ts:147-149 | an update that does not rewrite the id leaves the record at the position where lookups find it |
| RealTimePredictor.CumulativeWeights | src/components/RealTimePredictor.tsx:63-70 | the running weight totals are 0.4, 0.65, 0.8, 0.92 and 1 |
| RealTimePredictor.FirstReached | src/components/RealTimePredictor.tsx:69-75 | the first condition whose cumulative weight is ≥ r, all earlier ones being below r; -1 when none is |
| RealTimePredictor.Pick | src/components/RealTimePredictor.tsx:62-75 | the picked condition is always one of the five, with 'Healthy' as the fallback |
| RealTimePredictor.PickCondition | src/components/RealTimePredictor.tsx:62-75 | the accumulating loop with its early break returns exactly the specified pick |
| RealTimePredictor.PickBands | src/components/RealTimePredictor.tsx:62-75 | draws in [0,1] fall in the bands ≤0.4, ≤0.65, ≤0.8, ≤0.92 and ≤1, giving the five conditions in order |
| RealTimePredictor.DrawReachesCondition | src/components/RealTimePredictor.tsx:65-75 | for a draw in [0,1] some condition is reached, so the fallback is never taken |
| RealTimePredictor.LowDrawSelectsHealthy | src/components/RealTimePredictor.tsx:63-72 | a draw of at most 0.4 selects 'Healthy' |
| RealTimePredictor.PickMonotone | src/components/RealTimePredictor.tsx:63-75 | a larger draw never selects an earlier condition |
| RealTimePredictor.Confidence | src/components/RealTimePredictor.tsx:77 | before rounding, confidence lies in [85,98) |
| RealTimePredictor.Probability | src/components/RealTimePredictor.tsx:78 | probability is confidence/100, so in [0.85,0.98) when confidence is in [85,98) |
| RealTimePredictor.PushHistory | src/components/RealTimePredictor.tsx:88 | the new prediction heads the history, followed by the previous first nine in order; at most 10 entries |
| RealTimePredictor.ReplayIsLastTenNewestFirst | src/components/RealTimePredictor.tsx:88 | after any sequence of ticks the history holds the last ten predictions, or all of them if fewer, newest first |
| RealTimePredictor.Clamp | src/components/RealTimePredictor.tsx:56-58 | the clamped value lies in [lo, hi] and is unchanged when already inside |
| RealTimePredictor.UpdateBiomarker | src/components/RealTimePredictor.tsx:53-59 | whatever the previous values and draws: concentration ≥ 0, normalized and contribution in [0,1], confidence in [0.5,1], compound name unchanged |
| RealTimePredictor.UpdateBiomarkers | src/components/RealTimePredictor.tsx:53-59 | each reading is updated with its own draws; the length and order of the list are unchanged |
| RealTimePredictor.BiomarkersStayInBounds | src/components/RealTimePredictor.tsx:39-44 | the initial readings are inside the clamp bounds, and every tick leaves every reading inside them |
| RealTimePredictor.Tick | src/components/RealTimePredictor.tsx:51-88 | one tick updates the biomarkers and sets the current prediction to the pick with confidence in [85,98) and probability confidence/100. The prediction is pushed onto a history of at most 10 |
| PatientList.LowerChar | src/components/PatientList.tsx:95-97 | ASCII capitals map to their lower-case letters; every other character is kept |
| PatientList.Lower | src/components/PatientList.tsx:95-97 | lower-cases character by character and keeps the length |
| PatientList.LowerIdempotent | src/components/PatientList.tsx:95-97 | lower-casing twice equals lower-casing once |
| PatientList.Includes | src/components/PatientList.tsx:95-97 | the empty term is contained in every string; a contained term is no longer than the string |
| PatientList.IncludesIffOccurs | src/components/PatientList.tsx:95-97 | `includes` holds iff the term occurs as a contiguous slice at some position |
| PatientList.FilterPatients | src/components/PatientList.tsx:94-98 | the shown list is an order-preserving sub-list. A patient is shown iff the lower-cased term is a substring of its lower-cased name, id or condition, and a matching patient listed twice is shown twice |
| PatientList.EmptyTermKeepsAll | src/components/PatientList.tsx:94-98 | an empty search term shows every patient in order |
| PatientList.SearchIgnoresCase | src/components/PatientList.tsx:95-97 | terms that lower-case alike show the same list |
| PatientList.SearchLowerCasedTerm | src/components/PatientList.tsx:95-97 | searching for the lower-cased term shows the same list as the term itself |
| PatientList.ShownCount | src/components/PatientList.tsx:212 | the shown count never exceeds the total |
| PatientList.Split | src/components/PatientList.tsx:225 | splitting on single spaces gives at least one piece and no piece holds a space |
| PatientList.JoinSplit | src/components/PatientList.tsx:225 | joining the pieces with single spaces gives back the name |
| PatientList.SplitJoin | src/components/PatientList.tsx:225 | splitting words joined with single spaces gives back the words |
| PatientList.FirstLetters | src/components/PatientList.tsx:225 | every non-empty piece contributes its first character, and every letter comes from such a piece |
| PatientList.FirstLettersOfWords | src/components/PatientList.tsx:225 | with no empty piece there is exactly one letter per piece, the piece's first character, in order |
| PatientList.Initials | src/components/PatientList.tsx:225 | the initials are no longer than the name and hold no space |
| PatientList.InitialsOfWords | src/components/PatientList.tsx:225 | a name of non-empty words separated by single spaces gets the first character of each word, in order |
| PatientList.InitialsOfJohnSmith | src/components/PatientList.tsx:41-44 | the first patient of the list, 'John Smith', gets the initials 'JS' |

## Left out

- PredictCondition.NormaliseSpecProperties: states that normalisation keeps the ranking between classes, not that it keeps their ratios. Equal ratios before and after dividing by the total are not proved.
- Floating point: every number is a mathematical real or integer. `Math.floor((n / 100) * 100)` in the collection progress can give n − 1 in IEEE doubles. Only the cap at 100 and the completion rule are stated, on exact arithmetic. The weights of the real-time pick add up to exactly 1 here; in doubles the last running total may differ slightly.
- `toFixed` rounding of the real-time confidence and probability is not modelled. Tick states the values before rounding.
- NaN and other non-finite numbers passing the `typeof` checks are not modelled. The ingest model's number type holds only finite reals.
- JavaScript coercion of non-numeric sensor fields in the predictor and the trainer is not modelled. Their sensor data is a map of numbers.
- PredictCondition.Predict: a request without a sensor object is not modelled. The handler inserts the sensor reading, with its sensor object missing, before it reads `sensorData.s0`. That read then throws, and the request is answered with status 500, possibly leaving a stored reading without sensor data.
- MlTraining.TrainModel: a reading whose sensor object is null is not modelled. The feature extraction throws on it, and the background job's error is only logged. The session then stays 'running' at progress 0 and no model is created. That is a third outcome beside the failed and completed ones stated here.
- A request body whose sensor data is not an object is not modelled. The `in` test is taken on a record.
- Object key order follows insertion, as JavaScript does for string keys. Integer-like class names, which JavaScript orders first, are not modelled. Nor is `__proto__` as a class or label name: JavaScript does not make it an own key. Assigning a score to it is dropped, and assigning a matrix row to it replaces the prototype. The model instead keeps it as an ordinary key.
- The training confusion matrix is indexed by label position, not by label name. Since the labels are distinct, the two coincide for every label except `__proto__`, whose row and column the stored JavaScript object loses.
- Case folding covers ASCII letters only. `toLowerCase` on other Unicode characters is not modelled.
- PatientList.Initials: strings here are sequences of Unicode characters, not UTF-16 code units. A word that starts outside the Basic Multilingual Plane gets its whole first character here, and only the high half of its surrogate pair in JavaScript's `n[0]`.
- Backend calls are parameters or are left out: database queries and inserts, authentication and ownership lookups, function invocation. The insert error path of the ingest function (status 500) is among them.
- HTTP, CORS, `serve`, request parsing and response construction are left out. So are the status codes: every validation error is sent with status 400.
- Timers, `setTimeout`/`setInterval`, the background start of training and realtime subscriptions are left out. One interval tick of the live panel is modelled as a function.
- Random draws, `Date.now()` ids and ISO timestamps are parameters, not generated.
- The demo model and session helpers, the demo data-collection helpers (`getDataCollections`, `createDataCollection`, `updateDataCollection`) and the `edgeFunctions` mocks return fixed, random or echoed placeholder data and store nothing. They have no contract and are not modelled.
- DemoStore.Store.GetPatients and DemoStore.Store.GetSensorReadings return the lists as values. In demo mode `getPatients` and an unfiltered `getSensorReadings` hand out the module-level array itself, so a caller holding it sees later `unshift`, index assignments and `splice`; that aliasing is not modelled.
- The non-demo branches of the database helpers, the authentication context and all UI rendering (badges, colours, dialogs, toasts) are not modelled.

=== FILE: common.dfy ===
/** Values and sequence helpers shared by the modules of this model. */
module Common {

  datatype Option<+T> = None | Some(value: T)

  datatype Result<+T, +E> = Success(value: T) | Failure(error: E)

  /** A JSON value as the handlers receive it after `req.json()`. */
  datatype Json =
    | JNull
    | JBool(b: bool)
    | JNum(n: real)
    | JStr(s: string)
    | JArr(items: seq<Json>)
    | JObj(fields: map<string, Json>)

  /** An object literal such as a patient row or a sensor reading. */
  type Record = map<string, Json>

  /** `ys` keeps some of the elements of `xs`, in their original order. */
  predicate IsSubsequence<T(==)>(ys: seq<T>, xs: seq<T>)
    decreases |xs|
  {
    if ys == [] then true
    else if xs == [] then false
    else if ys[0] == xs[0] then IsSubsequence(ys[1..], xs[1..])
    else IsSubsequence(ys, xs[1..])
  }

  /** `Array.prototype.filter`: the elements that satisfy `p`, in order. */
  function Filter<T(==)>(xs: seq<T>, p: T -> bool): (ys: seq<T>)
    ensures |ys| <= |xs|
    ensures forall y :: y in ys ==> y in xs && p(y)
    ensures forall x :: x in xs && p(x) ==> x in ys
  {
    if xs == [] then []
    else if p(xs[0]) then [xs[0]] + Filter(xs[1..], p)
    else Filter(xs[1..], p)
  }

  /** Every element that satisfies `p` is kept as often as it occurs; every other one is dropped. */
  lemma {:induction false} FilterCounts<T>(xs: seq<T>, p: T -> bool)
    ensures forall x :: multiset(Filter(xs, p))[x] == if p(x) then multiset(xs)[x] else 0
  {
    if xs != [] {
      FilterCounts(xs[1..], p);
      assert xs == [xs[0]] + xs[1..];
    }
  }

  /** The kept elements keep their original order. */
  lemma {:induction false} FilterIsSubsequence<T>(xs: seq<T>, p: T -> bool)
    ensures IsSubsequence(Filter(xs, p), xs)
  {
    if xs != [] {
      FilterIsSubsequence(xs[1..], p);
      var rest := Filter(xs[1..], p);
      if p(xs[0]) {
        assert ([xs[0]] + rest)[1..] == rest;
      } else {
        assert rest != [] ==> rest[0] in xs[1..] && p(rest[0]);
      }
    }
  }

  /** Filtering with a predicate that every element satisfies changes nothing. */
  lemma {:induction false} FilterAll<T>(xs: seq<T>, p: T -> bool)
    requires forall x :: x in xs ==> p(x)
    ensures Filter(xs, p) == xs
  {
    if xs != [] {
      FilterAll(xs[1..], p);
    }
  }

  /** Filtering distributes over concatenation. */
  lemma {:induction false} FilterConcat<T>(xs: seq<T>, ys: seq<T>, p: T -> bool)
    ensures Filter(xs + ys, p) == Filter(xs, p) + Filter(ys, p)
  {
    if xs == [] {
      assert xs + ys == ys;
    } else {
      var zs := xs + ys;
      assert zs[0] == xs[0] && zs[1..] == xs[1..] + ys;
      FilterConcat(xs[1..], ys, p);
      if p(xs[0]) {
        calc {
          Filter(zs, p);
          [xs[0]] + Filter(xs[1..] + ys, p);
          [xs[0]] + (Filter(xs[1..], p) + Filter(ys, p));
          ([xs[0]] + Filter(xs[1..], p)) + Filter(ys, p);
        }
      }
    }
  }

  lemma SplitAt<T>(xs: seq<T>, k: nat)
    requires k < |xs|
    ensures xs == xs[..k] + [xs[k]] + xs[k + 1..]
  {
  }

  /** Filtering around one element splits into the parts before it, the element, and after it. */
  lemma FilterAround<T>(before: seq<T>, x: T, after: seq<T>, p: T -> bool)
    ensures Filter(before + [x] + after, p) == Filter(before, p) + Filter([x], p) + Filter(after, p)
  {
    FilterConcat(before + [x], after, p);
    FilterConcat(before, [x], p);
  }

  /** Filtering a sequence splits at any position `k`. */
  lemma FilterAt<T>(xs: seq<T>, k: nat, p: T -> bool)
    requires k < |xs|
    ensures Filter(xs, p) == Filter(xs[..k], p) + Filter([xs[k]], p) + Filter(xs[k + 1..], p)
  {
    SplitAt(xs, k);
    FilterAround(xs[..k], xs[k], xs[k + 1..], p);
  }

  /** Two predicates that agree on every element filter alike. */
  lemma {:induction false} FilterCongruent<T>(xs: seq<T>, p: T -> bool, q: T -> bool)
    requires forall x :: x in xs ==> p(x) == q(x)
    ensures Filter(xs, p) == Filter(xs, q)
  {
    if xs != [] {
      FilterCongruent(xs[1..], p, q);
    }
  }

  predicate NoDuplicates<T(==)>(xs: seq<T>)
  {
    forall i, j :: 0 <= i < j < |xs| ==> xs[i] != xs[j]
  }

  /** The position of the first occurrence of `x` in `xs`. */
  function FirstIndex<T(==)>(xs: seq<T>, x: T): (k: nat)
    requires x in xs
    ensures k < |xs| && xs[k] == x && x !in xs[..k]
  {
    if xs[0] == x then 0
    else
      var k := FirstIndex(xs[1..], x);
      assert xs[..k + 1] == [xs[0]] + xs[1..][..k];
      k + 1
  }

  /** The first occurrence is the only position with no earlier occurrence. */
  lemma FirstIndexUnique<T>(xs: seq<T>, x: T, k: nat)
    requires k < |xs| && xs[k] == x && x !in xs[..k]
    ensures FirstIndex(xs, x) == k
  {
    var m := FirstIndex(xs, x);
    assert xs[m] == x;
  }

  /**
   * `[...new Set(xs)]`: the distinct elements of `xs`, each at the place
   * of its first occurrence. Defined as the left-to-right insertion the
   * set performs.
   */
  function Dedup<T(==)>(xs: seq<T>): (ys: seq<T>)
    decreases |xs|
  {
    if xs == [] then []
    else
      var d := Dedup(xs[..|xs| - 1]);
      if xs[|xs| - 1] in d then d else d + [xs[|xs| - 1]]
  }

  /**
   * The de-duplicated sequence holds every element of the input exactly
   * once, in the order of first occurrence.
   */
  lemma {:induction false} DedupSpec<T>(xs: seq<T>)
    ensures NoDuplicates(Dedup(xs))
    ensures forall x :: x in Dedup(xs) <==> x in xs
    ensures forall i, j :: 0 <= i < j < |Dedup(xs)| ==>
              FirstIndex(xs, Dedup(xs)[i]) < FirstIndex(xs, Dedup(xs)[j])
    decreases |xs|
  {
    if xs != [] {
      var n := |xs|;
      var p := xs[..n - 1];
      var last := xs[n - 1];
      DedupSpec(p);
      var d := Dedup(p);
      assert forall x :: x in xs <==> x in p || x == last by {
        assert xs == p + [last];
      }
      forall y | y in p
        ensures FirstIndex(xs, y) == FirstIndex(p, y)
      {
        var k := FirstIndex(p, y);
        assert xs[..k] == p[..k];
        FirstIndexUnique(xs, y, k);
      }
      if last !in d {
        assert last !in p;
        assert xs[..n - 1] == p;
        FirstIndexUnique(xs, last, n - 1);
        var ys := d + [last];
        forall i, j | 0 <= i < j < |ys|
          ensures FirstIndex(xs, ys[i]) < FirstIndex(xs, ys[j])
        {
          if j == |ys| - 1 {
            assert ys[i] == d[i] && d[i] in d;
          } else {
            assert ys[i] == d[i] && ys[j] == d[j];
          }
        }
      }
    }
  }

  /** The sum of a sequence of reals, added left to right. */
  function Sum(xs: seq<real>): real
    decreases |xs|
  {
    if xs == [] then 0.0 else Sum(xs[..|xs| - 1]) + xs[|xs| - 1]
  }
}

=== FILE: demo_store.dfy ===
/**
 * The demo mode of the database helpers: with no backend configured the
 * helpers work on two module-level arrays of records, updated in place,
 * and on constant mock predictions.
 *
 * The generated id (`Date.now().toString()`) and the ISO timestamp are
 * parameters.
 */
module DemoStore {
  import opened Common

  /** A configuration value that JavaScript treats as falsy: missing or empty. */
  predicate Falsy(v: Option<string>)
  {
    v == None || v == Some("")
  }

  /** `!supabaseUrl || !supabaseAnonKey` */
  function IsDemo(url: Option<string>, anonKey: Option<string>): (demo: bool)
    ensures demo <==> Falsy(url) || Falsy(anonKey)
    ensures !demo <==> url.Some? && url.value != "" && anonKey.Some? && anonKey.value != ""
  {
    !(url.Some? && url.value != "") || !(anonKey.Some? && anonKey.value != "")
  }

  /** `row.id === id` */
  predicate HasId(row: Record, id: string)
  {
    "id" in row && row["id"] == JStr(id)
  }

  /** `row.patient_id === patientId` */
  predicate HasPatientId(row: Record, patientId: string)
  {
    "patient_id" in row && row["patient_id"] == JStr(patientId)
  }

  function IdIs(id: string): Record -> bool
  {
    row => HasId(row, id)
  }

  function IdIsNot(id: string): Record -> bool
  {
    row => !HasId(row, id)
  }

  function PatientIdIs(patientId: string): Record -> bool
  {
    row => HasPatientId(row, patientId)
  }

  /** `rows.findIndex(p => p.id === id)`: the first match, or -1. */
  function FindIndex(rows: seq<Record>, id: string): (k: int)
    ensures -1 <= k < |rows|
    ensures k == -1 <==> forall j :: 0 <= j < |rows| ==> !HasId(rows[j], id)
    ensures k >= 0 ==> HasId(rows[k], id) && forall j :: 0 <= j < k ==> !HasId(rows[j], id)
  {
    if rows == [] then -1
    else if HasId(rows[0], id) then 0
    else
      var k := FindIndex(rows[1..], id);
      if k == -1 then -1 else k + 1
  }

  /** A record with the fields of `row`, overridden by those of `fields`: `{ ...row, ...fields }`. */
  function Merge(row: Record, fields: Record): (merged: Record)
    ensures merged.Keys == row.Keys + fields.Keys
    ensures forall key :: key in fields ==> merged[key] == fields[key]
    ensures forall key :: key in row && key !in fields ==> merged[key] == row[key]
  {
    row + fields
  }

  /** The list after merging `updates` into the first record with the id. */
  function UpdateFirst(rows: seq<Record>, id: string, updates: Record): (result: seq<Record>)
    ensures |result| == |rows|
    ensures var k := FindIndex(rows, id);
            && (k == -1 ==> result == rows)
            && (k >= 0 ==>
                  result[k] == Merge(rows[k], updates)
                  && forall j :: 0 <= j < |rows| && j != k ==> result[j] == rows[j])
  {
    var k := FindIndex(rows, id);
    if k == -1 then rows else rows[k := Merge(rows[k], updates)]
  }

  /** The list after `splice(findIndex(...), 1)` when there is a match. */
  function RemoveFirst(rows: seq<Record>, id: string): (result: seq<Record>)
    ensures var k := FindIndex(rows, id);
            && (k == -1 ==> result == rows)
            && (k >= 0 ==>
                  |result| == |rows| - 1
                  && result[..k] == rows[..k]
                  && result[k..] == rows[k + 1..])
  {
    var k := FindIndex(rows, id);
    if k == -1 then rows else rows[..k] + rows[k + 1..]
  }

  /** Removing the record at `k` removes exactly its own contribution to a filter. */
  lemma FilterWithout(rows: seq<Record>, k: nat, p: Record -> bool)
    requires k < |rows|
    ensures Filter(rows, p) == Filter(rows[..k], p) + Filter([rows[k]], p) + Filter(rows[k + 1..], p)
    ensures Filter(rows[..k] + rows[k + 1..], p) == Filter(rows[..k], p) + Filter(rows[k + 1..], p)
  {
    FilterAt(rows, k, p);
    FilterConcat(rows[..k], rows[k + 1..], p);
  }

  /**
   * Removal deletes exactly one record with the id when there is one:
   * every record with another id stays, in order, and the number of
   * records with the id drops by one.
   */
  lemma RemoveFirstRemovesOneMatch(rows: seq<Record>, id: string)
    ensures Filter(RemoveFirst(rows, id), IdIsNot(id)) == Filter(rows, IdIsNot(id))
    ensures FindIndex(rows, id) >= 0 ==>
              |Filter(RemoveFirst(rows, id), IdIs(id))| == |Filter(rows, IdIs(id))| - 1
    ensures FindIndex(rows, id) == -1 ==> RemoveFirst(rows, id) == rows
  {
    var k := FindIndex(rows, id);
    if k >= 0 {
      assert RemoveFirst(rows, id) == rows[..k] + rows[k + 1..];
      FilterWithout(rows, k, IdIsNot(id));
      FilterWithout(rows, k, IdIs(id));
      assert Filter([rows[k]], IdIsNot(id)) == [];
      assert Filter([rows[k]], IdIs(id)) == [rows[k]];
    }
  }

  /**
   * `if (patientId) data = data.filter(r => r.patient_id === patientId)`:
   * a missing or empty id keeps every record; any other id keeps exactly
   * the records of that patient, in their original order.
   */
  function ForPatient(rows: seq<Record>, patientId: Option<string>): (data: seq<Record>)
    ensures Falsy(patientId) ==> data == rows
    ensures !Falsy(patientId) ==>
              IsSubsequence(data, rows)
              && (forall r :: r in data <==> r in rows && HasPatientId(r, patientId.value))
              && forall r :: multiset(data)[r] ==
                               if HasPatientId(r, patientId.value) then multiset(rows)[r] else 0
  {
    if Falsy(patientId) then rows
    else
      FilterIsSubsequence(rows, PatientIdIs(patientId.value));
      FilterCounts(rows, PatientIdIs(patientId.value));
      Filter(rows, PatientIdIs(patientId.value))
  }

  const InitialPatients: seq<Record> := [
    map["id" := JStr("1"), "name" := JStr("John Doe"), "patient_id" := JStr("P001"), "age" := JNum(45.0),
        "gender" := JStr("male"), "condition" := JStr("diabetes"), "created_at" := JStr("2024-01-15")],
    map["id" := JStr("2"), "name" := JStr("Jane Smith"), "patient_id" := JStr("P002"), "age" := JNum(32.0),
        "gender" := JStr("female"), "condition" := JStr("healthy"), "created_at" := JStr("2024-01-16")],
    map["id" := JStr("3"), "name" := JStr("Robert Johnson"), "patient_id" := JStr("P003"), "age" := JNum(58.0),
        "gender" := JStr("male"), "condition" := JStr("copd"), "created_at" := JStr("2024-01-17")],
    map["id" := JStr("4"), "name" := JStr("Emily Davis"), "patient_id" := JStr("P004"), "age" := JNum(41.0),
        "gender" := JStr("female"), "condition" := JStr("kidney"), "created_at" := JStr("2024-01-18")]
  ]

  const InitialSensorReadings: seq<Record> := [
    map["id" := JStr("1"), "patient_id" := JStr("1"),
        "sensor_data" := JObj(map["acetone" := JNum(2.45), "ammonia" := JNum(1.2), "ethanol" := JNum(0.8)]),
        "timestamp" := JStr("2024-01-20T10:30:00Z")],
    map["id" := JStr("2"), "patient_id" := JStr("2"),
        "sensor_data" := JObj(map["acetone" := JNum(1.1), "ammonia" := JNum(0.9), "ethanol" := JNum(0.5)]),
        "timestamp" := JStr("2024-01-20T11:00:00Z")]
  ]

  const MockPredictions: seq<Record> := [
    map["id" := JStr("1"), "patient_id" := JStr("1"), "condition" := JStr("diabetes"),
        "confidence" := JNum(0.94), "timestamp" := JStr("2024-01-20T10:30:00Z")],
    map["id" := JStr("2"), "patient_id" := JStr("2"), "condition" := JStr("healthy"),
        "confidence" := JNum(0.87), "timestamp" := JStr("2024-01-20T11:00:00Z")]
  ]

  /** The demo `getPredictions`: the constant mock predictions, filtered by patient. */
  function Predictions(patientId: Option<string>): (data: seq<Record>)
    ensures Falsy(patientId) ==> data == MockPredictions
    ensures !Falsy(patientId) ==>
              IsSubsequence(data, MockPredictions)
              && forall r :: r in data <==> r in MockPredictions && HasPatientId(r, patientId.value)
  {
    ForPatient(MockPredictions, patientId)
  }

  /** Patient "1" has exactly the first mock prediction. */
  lemma PredictionsOfFirstPatient()
    ensures Predictions(Some("1")) == [MockPredictions[0]]
  {
    var p := PatientIdIs("1");
    assert p(MockPredictions[0]) && !p(MockPredictions[1]);
    assert MockPredictions[1..][1..] == [];
  }

  /** The two module-level arrays of demo mode. */
  class Store {
    var patients: seq<Record>
    var sensorReadings: seq<Record>

    /** The arrays as the module initialises them. */
    constructor ()
      ensures patients == InitialPatients && sensorReadings == InitialSensorReadings
    {
      patients := InitialPatients;
      sensorReadings := InitialSensorReadings;
    }

    /**
     * `getPatients`: the live list itself, so every earlier create, update
     * and delete shows in what it returns.
     */
    method GetPatients() returns (data: seq<Record>)
      ensures data == patients
    {
      data := patients;
    }

    /** `createPatient`: the new record, with its id and creation time, goes to the front. */
    method CreatePatient(patient: Record, id: string, now: string) returns (data: Record)
      modifies this
      ensures data == Merge(patient, map["id" := JStr(id), "created_at" := JStr(now)])
      ensures patients == [data] + old(patients)
      ensures sensorReadings == old(sensorReadings)
    {
      data := Merge(patient, map["id" := JStr(id), "created_at" := JStr(now)]);
      patients := [data] + patients;
    }

    /**
     * `updatePatient`: merges `updates` into the first record with the id
     * and returns it; an unknown id changes nothing and reports
     * 'Patient not found'.
     */
    method UpdatePatient(id: string, updates: Record) returns (data: Option<Record>, error: Option<string>)
      modifies this
      ensures patients == UpdateFirst(old(patients), id, updates)
      ensures sensorReadings == old(sensorReadings)
      ensures var k := FindIndex(old(patients), id);
              && (k >= 0 ==> data == Some(patients[k]) && error == None)
              && (k == -1 ==> data == None && error == Some("Patient not found"))
    {
      var k := FindIndex(patients, id);
      if k >= 0 {
        patients := patients[k := Merge(patients[k], updates)];
        return Some(patients[k]), None;
      }
      return None, Some("Patient not found");
    }

    /** `deletePatient`: splices out the first record with the id, if any; never reports an error. */
    method DeletePatient(id: string) returns (error: Option<string>)
      modifies this
      ensures patients == RemoveFirst(old(patients), id)
      ensures sensorReadings == old(sensorReadings)
      ensures error == None
    {
      var k := FindIndex(patients, id);
      if k >= 0 {
        patients := patients[..k] + patients[k + 1..];
      }
      return None;
    }

    /** `getSensorReadings`: the readings of one patient, or all of them. */
    method GetSensorReadings(patientId: Option<string>) returns (data: seq<Record>)
      ensures data == ForPatient(sensorReadings, patientId)
    {
      data := sensorReadings;
      if !Falsy(patientId) {
        data := Filter(data, PatientIdIs(patientId.value));
      }
    }

    /** `createSensorReading`: the new reading, with its id and timestamp, goes to the front. */
    method CreateSensorReading(reading: Record, id: string, now: string) returns (data: Record)
      modifies this
      ensures data == Merge(reading, map["id" := JStr(id), "timestamp" := JStr(now)])
      ensures sensorReadings == [data] + old(sensorReadings)
      ensures patients == old(patients)
    {
      data := Merge(reading, map["id" := JStr(id), "timestamp" := JStr(now)]);
      sensorReadings := [data] + sensorReadings;
    }
  }

  /** A created patient is the first record found under its id. */
  lemma CreatedPatientIsFoundFirst(rows: seq<Record>, patient: Record, id: string, now: string)
    ensures FindIndex([Merge(patient, map["id" := JStr(id), "created_at" := JStr(now)])] + rows, id) == 0
  {
  }

  /** Updating and then looking up the same id finds the merged record at the same place. */
  lemma UpdateKeepsPosition(rows: seq<Record>, id: string, updates: Record)
    requires "id" !in updates
    ensures FindIndex(UpdateFirst(rows, id, updates), id) == FindIndex(rows, id)
  {
    var k := FindIndex(rows, id);
    var result := UpdateFirst(rows, id, updates);
    if k >= 0 {
      assert HasId(result[k], id);
      assert forall j :: 0 <= j < k ==> result[j] == rows[j];
    }
  }
}

=== FILE: features.dfy ===
/**
 * The feature vector that the prediction and training functions both build
 * from a reading's `sensor_data`, and the per-channel weights both draw as
 * `Math.random() * cap`.
 */
module Features {

  /** The numeric fields of a `sensor_data` object; an absent key is `undefined`. */
  type NumericData = map<string, real>

  datatype FeatureVector = FeatureVector(
    s0Mean: real, s1Mean: real, s2Mean: real, s3Mean: real,
    tempMean: real, humidityMean: real)

  /**
   * `data[key] || fallback` for a numeric field: `undefined` and `0` are
   * falsy and give way to the fallback, any other number is kept.
   */
  function OrDefault(data: NumericData, key: string, fallback: real): (v: real)
    ensures key in data && data[key] != 0.0 ==> v == data[key]
    ensures key !in data || data[key] == 0.0 ==> v == fallback
  {
    if key in data && data[key] != 0.0 then data[key] else fallback
  }

  /** The six `_mean` features of one reading: sensors default to 0, temp to 25, humidity to 50. */
  function Extract(data: NumericData): (f: FeatureVector)
    ensures f.s0Mean == OrDefault(data, "s0", 0.0) && f.s1Mean == OrDefault(data, "s1", 0.0)
    ensures f.s2Mean == OrDefault(data, "s2", 0.0) && f.s3Mean == OrDefault(data, "s3", 0.0)
    ensures f.tempMean == OrDefault(data, "temp", 25.0)
    ensures f.humidityMean == OrDefault(data, "humidity", 50.0)
  {
    FeatureVector(
      OrDefault(data, "s0", 0.0), OrDefault(data, "s1", 0.0),
      OrDefault(data, "s2", 0.0), OrDefault(data, "s3", 0.0),
      OrDefault(data, "temp", 25.0), OrDefault(data, "humidity", 50.0))
  }

  /**
   * A genuine reading of 0 °C is indistinguishable from a missing one, and
   * so is a genuine 0 % humidity: each feature becomes its default whatever
   * the other field holds.
   */
  lemma ZeroIsReplacedByDefault(data: NumericData)
    ensures "temp" in data && data["temp"] == 0.0 ==>
              Extract(data).tempMean == 25.0 && Extract(data) == Extract(data - {"temp"})
    ensures "humidity" in data && data["humidity"] == 0.0 ==>
              Extract(data).humidityMean == 50.0 && Extract(data) == Extract(data - {"humidity"})
  {
  }

  /** A missing or zero sensor channel becomes 0; a present non-zero one is passed through. */
  lemma SensorFeatureIsValueOrZero(data: NumericData, key: string)
    ensures OrDefault(data, key, 0.0) == (if key in data then data[key] else 0.0)
  {
  }

  /** The per-channel weight: one random value per channel, each scaled by a fixed cap. */
  datatype ChannelWeights = ChannelWeights(
    s0: real, s1: real, s2: real, s3: real, temp: real, humidity: real)

  predicate IsUnitDraw(r: real) { 0.0 <= r < 1.0 }

  /**
   * `Math.random() * cap` for each channel, with caps 0.3, 0.25, 0.2, 0.15,
   * 0.05 and 0.05. Every weight lies in [0, cap); the weights are not
   * normalised, and as the caps add up to 1 their total stays below 1.
   */
  function DrawWeights(draws: seq<real>): (w: ChannelWeights)
    requires |draws| == 6 && forall i :: 0 <= i < 6 ==> IsUnitDraw(draws[i])
    ensures 0.0 <= w.s0 < 0.3 && 0.0 <= w.s1 < 0.25 && 0.0 <= w.s2 < 0.2
    ensures 0.0 <= w.s3 < 0.15 && 0.0 <= w.temp < 0.05 && 0.0 <= w.humidity < 0.05
    ensures 0.0 <= w.s0 + w.s1 + w.s2 + w.s3 + w.temp + w.humidity < 1.0
  {
    assert IsUnitDraw(draws[0]) && IsUnitDraw(draws[1]) && IsUnitDraw(draws[2]);
    assert IsUnitDraw(draws[3]) && IsUnitDraw(draws[4]) && IsUnitDraw(draws[5]);
    ChannelWeights(
      draws[0] * 0.3, draws[1] * 0.25, draws[2] * 0.2,
      draws[3] * 0.15, draws[4] * 0.05, draws[5] * 0.05)
  }
}

=== FILE: ingest.dfy ===
/**
 * The sensor-reading ingestion handler: required-field check, range checks
 * in a fixed order (first failure wins), the stored row with its defaults,
 * the data-collection counter, anomaly messages and data-quality flags.
 */
module IngestSensorData {
  import opened Common

  /** The `sensorData` object of the request body. */
  type SensorData = map<string, Json>

  const RequiredFields: seq<string> := ["s0", "s1", "s2", "s3", "temp", "humidity"]

  /** The error responses of the validation steps; every one is sent with status 400. */
  datatype IngestError =
    | MissingSensorFields(fields: seq<string>)
    | InvalidSensorValues
    | InvalidTemperature
    | InvalidHumidity

  /** The required fields absent from the object (`field in sensorData` is false), in the fixed order. */
  function MissingFields(data: SensorData): (missing: seq<string>)
    ensures forall f :: f in missing <==> f in RequiredFields && f !in data
    ensures IsSubsequence(missing, RequiredFields)
  {
    FilterIsSubsequence(RequiredFields, f => f !in data);
    Filter(RequiredFields, f => f !in data)
  }

  /** Every required field is a key of the object. */
  predicate AllPresent(data: SensorData)
  {
    "s0" in data && "s1" in data && "s2" in data && "s3" in data && "temp" in data && "humidity" in data
  }

  /** `typeof v === 'number' && !(v < lo) && !(v > hi)`: the bounds are inclusive. */
  predicate NumberIn(v: Json, lo: real, hi: real)
  {
    v.JNum? && lo <= v.n <= hi
  }

  /** `[sensorData.s0, sensorData.s1, sensorData.s2, sensorData.s3]` */
  function ChannelValues(data: SensorData): seq<Json>
    requires AllPresent(data)
  {
    [data["s0"], data["s1"], data["s2"], data["s3"]]
  }

  /** No channel fails `typeof val !== 'number' || val < 0 || val > 1023`. */
  predicate ChannelsInRange(data: SensorData)
    requires AllPresent(data)
  {
    forall v :: v in ChannelValues(data) ==> NumberIn(v, 0.0, 1023.0)
  }

  /** The required-field check passes exactly when all six fields are present. */
  lemma NoneMissingIffAllPresent(data: SensorData)
    ensures MissingFields(data) == [] <==> AllPresent(data)
  {
  }

  /** A reading that passed every check: all six fields are numbers. */
  datatype ValidReading = ValidReading(
    s0: real, s1: real, s2: real, s3: real, temp: real, humidity: real)

  function SensorValues(r: ValidReading): seq<real>
  {
    [r.s0, r.s1, r.s2, r.s3]
  }

  /**
   * The checks of the handler in their order: missing fields, then the four
   * channels (one message, whichever channel failed), then temperature,
   * then humidity. The first failure decides the error.
   */
  function Validate(data: SensorData): (r: Result<ValidReading, IngestError>)
    ensures !AllPresent(data) ==> r == Failure(MissingSensorFields(MissingFields(data)))
    ensures AllPresent(data) && !ChannelsInRange(data) ==> r == Failure(InvalidSensorValues)
    ensures (AllPresent(data) && ChannelsInRange(data) && !NumberIn(data["temp"], -40.0, 85.0))
              ==> r == Failure(InvalidTemperature)
    ensures (AllPresent(data) && ChannelsInRange(data) && NumberIn(data["temp"], -40.0, 85.0)
              && !NumberIn(data["humidity"], 0.0, 100.0))
              ==> r == Failure(InvalidHumidity)
    ensures r.Success? <==>
              AllPresent(data) && ChannelsInRange(data)
              && NumberIn(data["temp"], -40.0, 85.0) && NumberIn(data["humidity"], 0.0, 100.0)
    ensures r.Success? ==>
              data["s0"] == JNum(r.value.s0) && data["s1"] == JNum(r.value.s1)
              && data["s2"] == JNum(r.value.s2) && data["s3"] == JNum(r.value.s3)
              && data["temp"] == JNum(r.value.temp) && data["humidity"] == JNum(r.value.humidity)
  {
    var missing := MissingFields(data);
    NoneMissingIffAllPresent(data);
    if missing != [] then
      Failure(MissingSensorFields(missing))
    else if !ChannelsInRange(data) then
      Failure(InvalidSensorValues)
    else if !NumberIn(data["temp"], -40.0, 85.0) then
      Failure(InvalidTemperature)
    else if !NumberIn(data["humidity"], 0.0, 100.0) then
      Failure(InvalidHumidity)
    else
      var values := ChannelValues(data);
      assert values[0] in values && values[1] in values && values[2] in values && values[3] in values;
      Success(ValidReading(
        data["s0"].n, data["s1"].n, data["s2"].n, data["s3"].n,
        data["temp"].n, data["humidity"].n))
  }

  /** Every accepted reading has its six values inside the hard physical bounds. */
  lemma AcceptedIsInBounds(data: SensorData)
    requires Validate(data).Success?
    ensures var r := Validate(data).value;
            (forall v :: v in SensorValues(r) ==> 0.0 <= v <= 1023.0)
            && -40.0 <= r.temp <= 85.0 && 0.0 <= r.humidity <= 100.0
  {
    var values := ChannelValues(data);
    assert values[0] in values && values[1] in values && values[2] in values && values[3] in values;
  }

  const HighSensorMessage: string := "High sensor reading detected"
  const TemperatureMessage: string := "Unusual breath temperature"
  const HumidityMessage: string := "Unusual breath humidity"

  /** The three anomaly messages in the order the handler tests them. */
  const AnomalyOrder: seq<string> := [HighSensorMessage, TemperatureMessage, HumidityMessage]

  predicate HighSensor(r: ValidReading)
  {
    exists v :: v in SensorValues(r) && v > 900.0
  }

  predicate UnusualTemperature(r: ValidReading)
  {
    r.temp > 40.0 || r.temp < 30.0
  }

  predicate UnusualHumidity(r: ValidReading)
  {
    r.humidity < 60.0 || r.humidity > 95.0
  }

  /** The anomaly test behind `message`; an unknown message is never raised. */
  predicate Raised(r: ValidReading, message: string)
  {
    || (message == HighSensorMessage && HighSensor(r))
    || (message == TemperatureMessage && UnusualTemperature(r))
    || (message == HumidityMessage && UnusualHumidity(r))
  }

  function RaisedBy(r: ValidReading): string -> bool
  {
    message => Raised(r, message)
  }

  /**
   * The anomalies a reading should report: the messages whose test fires,
   * each once, in the fixed order high-sensor, temperature, humidity.
   */
  function Anomalies(r: ValidReading): (anomalies: seq<string>)
    ensures HighSensorMessage in anomalies <==> HighSensor(r)
    ensures TemperatureMessage in anomalies <==> UnusualTemperature(r)
    ensures HumidityMessage in anomalies <==> UnusualHumidity(r)
    ensures forall m :: m in anomalies ==> m in AnomalyOrder
    ensures IsSubsequence(anomalies, AnomalyOrder)
    ensures anomalies == [] <==> !HighSensor(r) && !UnusualTemperature(r) && !UnusualHumidity(r)
  {
    FilterIsSubsequence(AnomalyOrder, RaisedBy(r));
    FilterAnomalyOrder(r);
    Filter(AnomalyOrder, RaisedBy(r))
  }

  /** The anomaly filter, one message at a time. */
  lemma FilterAnomalyOrder(r: ValidReading)
    ensures Filter(AnomalyOrder, RaisedBy(r)) ==
              (if HighSensor(r) then [HighSensorMessage] else [])
              + (if UnusualTemperature(r) then [TemperatureMessage] else [])
              + (if UnusualHumidity(r) then [HumidityMessage] else [])
  {
    var p := RaisedBy(r);
    var high := if HighSensor(r) then [HighSensorMessage] else [];
    var temperature := if UnusualTemperature(r) then [TemperatureMessage] else [];
    var humidity := if UnusualHumidity(r) then [HumidityMessage] else [];
    var rest := AnomalyOrder[1..];
    assert rest == [TemperatureMessage, HumidityMessage] && rest[1..] == [HumidityMessage];
    assert Filter(rest[1..], p) == humidity by {
      assert Filter(rest[1..][1..], p) == [];
    }
    assert Filter(rest, p) == temperature + humidity;
    assert Filter(AnomalyOrder, p) == high + (temperature + humidity);
  }

  /**
   * The anomaly list as the handler builds it, by one `push` per test that
   * fires; it is exactly the specified list of anomalies.
   */
  method DetectAnomalies(r: ValidReading) returns (anomalies: seq<string>)
    ensures anomalies == Anomalies(r)
  {
    anomalies := [];
    var values := SensorValues(r);
    if exists v :: v in values && v > 900.0 {
      anomalies := anomalies + [HighSensorMessage];
    }
    if r.temp > 40.0 || r.temp < 30.0 {
      anomalies := anomalies + [TemperatureMessage];
    }
    if r.humidity < 60.0 || r.humidity > 95.0 {
      anomalies := anomalies + [HumidityMessage];
    }
    FilterAnomalyOrder(r);
  }

  /** `anomalies.length > 0 ? anomalies : null` */
  function Reported(anomalies: seq<string>): (reported: Option<seq<string>>)
    ensures reported == None <==> anomalies == []
    ensures reported.Some? ==> reported.value == anomalies
  {
    if |anomalies| > 0 then Some(anomalies) else None
  }

  datatype DataQuality = DataQuality(sensorRange: bool, temperatureRange: bool, humidityRange: bool)

  /**
   * The data-quality booleans of the response. The temperature and humidity
   * flags are false exactly when the matching anomaly is raised.
   */
  function Quality(r: ValidReading): (q: DataQuality)
    ensures q.sensorRange <==> forall v :: v in SensorValues(r) ==> 0.0 <= v <= 1023.0
    ensures q.temperatureRange <==> !UnusualTemperature(r)
    ensures q.humidityRange <==> !UnusualHumidity(r)
  {
    DataQuality(
      forall v :: v in SensorValues(r) ==> 0.0 <= v && v <= 1023.0,
      r.temp >= 30.0 && r.temp <= 40.0,
      r.humidity >= 60.0 && r.humidity <= 95.0)
  }

  /** `sensorRange` is true for every reading that gets past validation. */
  lemma AcceptedHasSensorRange(data: SensorData)
    requires Validate(data).Success?
    ensures Quality(Validate(data).value).sensorRange
  {
    AcceptedIsInBounds(data);
  }

  /** The row written to `sensor_readings`. */
  datatype StoredReading = StoredReading(
    patientId: Json, sessionId: Json, sensorData: SensorData,
    environmentalData: Record, sampleDuration: real)

  /** `sampleDuration || 5`: absent and 0 both give 5; any other number is kept as given. */
  function DurationOrDefault(d: Option<real>): (v: real)
    ensures d == None || d == Some(0.0) ==> v == 5.0
    ensures d.Some? && d.value != 0.0 ==> v == d.value
  {
    match d
    case None => 5.0
    case Some(x) => if x != 0.0 then x else 5.0
  }

  /** `environmentalData || {}`: a missing object is stored as the empty object. */
  function EnvironmentOrEmpty(e: Option<Record>): (v: Record)
    ensures e == None ==> v == map[]
    ensures e.Some? ==> v == e.value
  {
    match e
    case None => map[]
    case Some(x) => x
  }

  datatype IngestRequest = IngestRequest(
    patientId: Json, sessionId: Json, sensorData: SensorData,
    environmentalData: Option<Record>, sampleDuration: Option<real>)

  function ToStore(req: IngestRequest): StoredReading
  {
    StoredReading(req.patientId, req.sessionId, req.sensorData,
      EnvironmentOrEmpty(req.environmentalData), DurationOrDefault(req.sampleDuration))
  }

  /** `(samples_collected || 0) + 1`: a null count counts as 0. */
  function NextSampleCount(collected: Option<int>): (n: int)
    ensures collected == None ==> n == 1
    ensures collected.Some? ==> n == collected.value + 1
  {
    match collected
    case None => 1
    case Some(c) => (if c != 0 then c else 0) + 1
  }

  /**
   * `Math.min(100, Math.floor((n / 100) * 100))`: capped at 100, never
   * negative for a non-negative count, and at 100 exactly when the count
   * has reached the target of 100 samples.
   */
  function CollectionProgress(count: int): (p: int)
    ensures p <= 100
    ensures count >= 0 ==> p >= 0
    ensures p >= 100 <==> count >= 100
  {
    var scaled := (count as real / 100.0 * 100.0).Floor;
    if scaled < 100 then scaled else 100
  }

  /** One row of `data_collections`, read, incremented and written back by the handler. */
  class DataCollection {
    var samplesCollected: Option<int>
    var progress: int
    var status: string
    var completedAt: Option<string>

    constructor (samplesCollected: Option<int>, progress: int, status: string, completedAt: Option<string>)
      ensures this.samplesCollected == samplesCollected && this.progress == progress
      ensures this.status == status && this.completedAt == completedAt
    {
      this.samplesCollected := samplesCollected;
      this.progress := progress;
      this.status := status;
      this.completedAt := completedAt;
    }

    /**
     * The update after one stored reading: the count goes up by one, the
     * progress follows it, and `status`/`completed_at` are written only when
     * the progress reaches 100.
     */
    method RecordSample(now: string)
      modifies this
      ensures samplesCollected == Some(NextSampleCount(old(samplesCollected)))
      ensures progress == CollectionProgress(NextSampleCount(old(samplesCollected)))
      ensures progress <= 100
      ensures old(samplesCollected) == None || old(samplesCollected.value) >= 0 ==> progress >= 0
      ensures progress >= 100 ==> status == "completed" && completedAt == Some(now)
      ensures progress < 100 ==> status == old(status) && completedAt == old(completedAt)
    {
      var newSampleCount := NextSampleCount(samplesCollected);
      var newProgress := CollectionProgress(newSampleCount);
      samplesCollected := Some(newSampleCount);
      progress := newProgress;
      if newProgress >= 100 {
        status := "completed";
        completedAt := Some(now);
      }
    }
  }

  /** The successful response body, less the database-assigned id and timestamp. */
  datatype IngestResponse = IngestResponse(
    stored: StoredReading, anomalies: Option<seq<string>>, dataQuality: DataQuality)

  /**
   * The handler from the request body on: validate, store, bump the
   * session's collection row when one exists, then report anomalies and
   * data quality. A rejected reading stores nothing and touches no row.
   */
  method Ingest(req: IngestRequest, collection: DataCollection?, now: string)
    returns (res: Result<IngestResponse, IngestError>)
    modifies collection
    ensures res.Failure? <==> Validate(req.sensorData).Failure?
    ensures res.Failure? ==> res.error == Validate(req.sensorData).error
    ensures res.Failure? && collection != null ==> unchanged(collection)
    ensures res.Success? ==>
              var r := Validate(req.sensorData).value;
              && res.value.stored == ToStore(req)
              && res.value.dataQuality == Quality(r)
              && res.value.dataQuality.sensorRange
              && res.value.anomalies == Reported(Anomalies(r))
    ensures res.Success? && collection != null ==>
              var n := NextSampleCount(old(collection.samplesCollected));
              && collection.samplesCollected == Some(n)
              && collection.progress == CollectionProgress(n)
              && (n >= 100 ==> collection.status == "completed" && collection.completedAt == Some(now))
              && (n < 100 ==> collection.status == old(collection.status)
                              && collection.completedAt == old(collection.completedAt))
  {
    var v := Validate(req.sensorData);
    if v.Failure? {
      return Failure(v.error);
    }
    var r := v.value;
    var stored := ToStore(req);
    if collection != null {
      collection.RecordSample(now);
    }
    var anomalies := DetectAnomalies(r);
    AcceptedHasSensorRange(req.sensorData);
    res := Success(IngestResponse(stored, Reported(anomalies), Quality(r)));
  }
}

=== FILE: patients.dfy ===
/**
 * The patient list panel: the case-insensitive search over name, id and
 * condition, the "shown of total" count, and the avatar initials.
 */
module PatientList {
  import opened Common

  datatype PatientStatus = Active | Inactive | Completed

  datatype Patient = Patient(
    id: string, name: string, age: nat, gender: string, condition: string,
    samples: nat, lastVisit: string, status: PatientStatus)

  const InitialPatients: seq<Patient> := [
    Patient("P001", "John Smith", 45, "Male", "Diabetes", 12, "2024-01-15", Active),
    Patient("P002", "Sarah Johnson", 32, "Female", "Healthy", 8, "2024-01-14", Active),
    Patient("P003", "Michael Brown", 58, "Male", "COPD", 15, "2024-01-13", Completed),
    Patient("P004", "Emma Davis", 28, "Female", "Asthma", 6, "2024-01-12", Active),
    Patient("P005", "Robert Wilson", 67, "Male", "Kidney Disease", 9, "2024-01-10", Inactive)
  ]

  /** Lower-cases an ASCII capital and leaves every other character alone. */
  function LowerChar(c: char): (d: char)
    ensures 'A' <= c <= 'Z' ==> 'a' <= d <= 'z' && d as int == c as int + 32
    ensures !('A' <= c <= 'Z') ==> d == c
  {
    if 'A' <= c <= 'Z' then (c as int + 32) as char else c
  }

  /** `toLowerCase()` over ASCII letters. */
  function Lower(s: string): (t: string)
    ensures |t| == |s| && forall i :: 0 <= i < |s| ==> t[i] == LowerChar(s[i])
  {
    if s == [] then [] else [LowerChar(s[0])] + Lower(s[1..])
  }

  /** Lower-casing twice is lower-casing once. */
  lemma LowerIdempotent(s: string)
    ensures Lower(Lower(s)) == Lower(s)
  {
    var t := Lower(s);
    assert forall i :: 0 <= i < |s| ==> Lower(t)[i] == LowerChar(LowerChar(s[i]));
  }

  /** `needle` occurs in `hay` starting at position `i`. */
  predicate OccursAt(hay: string, needle: string, i: nat)
  {
    i + |needle| <= |hay| && hay[i..i + |needle|] == needle
  }

  /** `hay.includes(needle)`: tries each start position from the left. */
  function Includes(hay: string, needle: string): (b: bool)
    ensures |needle| == 0 ==> b
    ensures b ==> |needle| <= |hay|
    decreases |hay|
  {
    if needle <= hay then true
    else if hay == [] then false
    else Includes(hay[1..], needle)
  }

  /** `Includes` holds exactly when the needle occurs at some position. */
  lemma {:induction false} IncludesIffOccurs(hay: string, needle: string)
    ensures Includes(hay, needle) ==> exists i: nat :: OccursAt(hay, needle, i)
    ensures forall i: nat :: OccursAt(hay, needle, i) ==> Includes(hay, needle)
    decreases |hay|
  {
    if hay != [] {
      IncludesIffOccurs(hay[1..], needle);
    }
    if needle <= hay {
      assert OccursAt(hay, needle, 0);
    } else if Includes(hay, needle) {
      var i: nat :| OccursAt(hay[1..], needle, i);
      assert hay[1..][i..i + |needle|] == hay[i + 1..i + 1 + |needle|];
      assert OccursAt(hay, needle, i + 1);
    }
    forall i: nat | OccursAt(hay, needle, i)
      ensures Includes(hay, needle)
    {
      if i == 0 {
        assert hay[..|needle|] == needle;
      } else {
        assert hay[1..][i - 1..i - 1 + |needle|] == hay[i..i + |needle|];
        assert OccursAt(hay[1..], needle, i - 1);
      }
    }
  }

  /** The lower-cased term is a substring of the lower-cased name, id or condition. */
  predicate Matches(term: string, p: Patient)
  {
    var t := Lower(term);
    Includes(Lower(p.name), t) || Includes(Lower(p.id), t) || Includes(Lower(p.condition), t)
  }

  /** `filteredPatients` */
  function FilterPatients(patients: seq<Patient>, term: string): (shown: seq<Patient>)
    ensures IsSubsequence(shown, patients)
    ensures forall p :: p in shown <==> p in patients && Matches(term, p)
    ensures forall p :: multiset(shown)[p] == if Matches(term, p) then multiset(patients)[p] else 0
    ensures |shown| <= |patients|
  {
    FilterIsSubsequence(patients, p => Matches(term, p));
    FilterCounts(patients, p => Matches(term, p));
    Filter(patients, p => Matches(term, p))
  }

  /** An empty search term keeps every patient, in order. */
  lemma EmptyTermKeepsAll(patients: seq<Patient>)
    ensures FilterPatients(patients, "") == patients
  {
    FilterAll(patients, p => Matches("", p));
  }

  /** Terms that lower-case alike select the same patients in the same order. */
  lemma SearchIgnoresCase(patients: seq<Patient>, term1: string, term2: string)
    requires Lower(term1) == Lower(term2)
    ensures FilterPatients(patients, term1) == FilterPatients(patients, term2)
  {
    FilterCongruent(patients, p => Matches(term1, p), p => Matches(term2, p));
  }

  /** In particular, searching for the lower-cased term gives the same list. */
  lemma SearchLowerCasedTerm(patients: seq<Patient>, term: string)
    ensures FilterPatients(patients, Lower(term)) == FilterPatients(patients, term)
  {
    LowerIdempotent(term);
    SearchIgnoresCase(patients, Lower(term), term);
  }

  /** The "{shown} of {total} patients shown" line never shows more than the total. */
  function ShownCount(patients: seq<Patient>, term: string): (counts: (nat, nat))
    ensures counts.0 <= counts.1 == |patients|
  {
    (|FilterPatients(patients, term)|, |patients|)
  }

  /** `s.split(' ')`: the pieces between single spaces, empty ones included. */
  function Split(s: string): (pieces: seq<string>)
    ensures |pieces| >= 1
    ensures forall w :: w in pieces ==> ' ' !in w
  {
    if s == [] then [[]]
    else if s[0] == ' ' then [[]] + Split(s[1..])
    else
      var rest := Split(s[1..]);
      [[s[0]] + rest[0]] + rest[1..]
  }

  /** `pieces.join(' ')` */
  function Join(pieces: seq<string>): string
    requires |pieces| >= 1
  {
    if |pieces| == 1 then pieces[0] else pieces[0] + " " + Join(pieces[1..])
  }

  /** Joining the pieces with single spaces gives back the name. */
  lemma {:induction false} JoinSplit(s: string)
    ensures Join(Split(s)) == s
  {
    if s != [] {
      JoinSplit(s[1..]);
      var rest := Split(s[1..]);
      if s[0] == ' ' {
        assert ([[]] + rest)[1..] == rest;
        assert s == [' '] + s[1..];
      } else if |rest| > 1 {
        var pieces := [[s[0]] + rest[0]] + rest[1..];
        assert pieces[1..] == rest[1..];
        assert Join(rest) == rest[0] + " " + Join(rest[1..]);
        assert s == [s[0]] + s[1..];
      } else {
        assert s == [s[0]] + s[1..];
      }
    }
  }

  /** A word without spaces glues onto the first piece of what follows it. */
  lemma {:induction false} SplitWord(w: string, t: string)
    requires ' ' !in w
    ensures Split(w + t) == [w + Split(t)[0]] + Split(t)[1..]
  {
    if w != [] {
      assert ' ' !in w[1..] by {
        assert forall c :: c in w[1..] ==> c in w;
      }
      SplitWord(w[1..], t);
      assert (w + t)[1..] == w[1..] + t;
      var r := Split(w[1..] + t);
      assert Split(w + t) == [[w[0]] + r[0]] + r[1..];
      assert [w[0]] + (w[1..] + Split(t)[0]) == w + Split(t)[0];
    } else {
      assert w + t == t;
      assert w + Split(t)[0] == Split(t)[0];
    }
  }

  /** Splitting words joined by single spaces gives back the words. */
  lemma {:induction false} SplitJoin(words: seq<string>)
    requires |words| >= 1
    requires forall w :: w in words ==> ' ' !in w
    ensures Split(Join(words)) == words
  {
    if |words| == 1 {
      SplitWord(words[0], []);
      assert words[0] + [] == words[0];
    } else {
      var rest := Join(words[1..]);
      SplitJoin(words[1..]);
      assert words[0] + " " + rest == words[0] + ([' '] + rest);
      SplitWord(words[0], [' '] + rest);
      assert ([' '] + rest)[1..] == rest;
      assert words[0] + [] == words[0];
    }
  }

  /** The first character of each non-empty piece, in order; empty pieces add nothing. */
  function FirstLetters(pieces: seq<string>): (letters: string)
    ensures |letters| <= |pieces|
    ensures forall w :: w in pieces && w != [] ==> w[0] in letters
    ensures forall c :: c in letters ==> exists w :: w in pieces && w != [] && w[0] == c
  {
    if pieces == [] then []
    else (if pieces[0] == [] then [] else [pieces[0][0]]) + FirstLetters(pieces[1..])
  }

  /** When no piece is empty, the letters are the pieces' first characters, one each. */
  lemma {:induction false} FirstLettersOfWords(pieces: seq<string>)
    requires forall i :: 0 <= i < |pieces| ==> pieces[i] != []
    ensures |FirstLetters(pieces)| == |pieces|
    ensures forall i :: 0 <= i < |pieces| ==> FirstLetters(pieces)[i] == pieces[i][0]
  {
    if pieces != [] {
      FirstLettersOfWords(pieces[1..]);
      assert FirstLetters(pieces) == [pieces[0][0]] + FirstLetters(pieces[1..]);
    }
  }

  /** `name.split(' ').map(n => n[0]).join('')` */
  function Initials(name: string): (initials: string)
    ensures |initials| <= |name|
    ensures ' ' !in initials
  {
    SplitLength(name);
    FirstLetters(Split(name))
  }

  /** No piece is longer than the name, nor are there more non-empty pieces than characters. */
  lemma {:induction false} SplitLength(s: string)
    ensures |FirstLetters(Split(s))| <= |s|
  {
    if s != [] {
      SplitLength(s[1..]);
      var rest := Split(s[1..]);
      if s[0] == ' ' {
        assert ([[]] + rest)[1..] == rest;
      } else {
        var pieces := [[s[0]] + rest[0]] + rest[1..];
        assert pieces[1..] == rest[1..];
        assert |FirstLetters(rest)| >= |FirstLetters(rest[1..])|;
      }
    }
  }

  /** A name made of non-empty words separated by single spaces gets one initial per word, in order. */
  lemma InitialsOfWords(words: seq<string>)
    requires |words| >= 1
    requires forall w :: w in words ==> w != [] && ' ' !in w
    ensures |Initials(Join(words))| == |words|
    ensures forall i :: 0 <= i < |words| ==> Initials(Join(words))[i] == words[i][0]
  {
    SplitJoin(words);
    FirstLettersOfWords(words);
  }

  /** The first patient of the list, "John Smith", is shown as "JS". */
  lemma InitialsOfJohnSmith()
    ensures Initials(InitialPatients[0].name) == "JS"
  {
    var words := ["John", "Smith"];
    assert Join(words) == "John Smith";
    InitialsOfWords(words);
  }
}

=== FILE: predict.dfy ===
/**
 * The rule-based condition predictor: threshold label, confidence band,
 * the probability partition over the model's target classes, its in-place
 * normalisation, and the per-channel contributions.
 *
 * Every `Math.random()` is an injected value in [0, 1).
 */
module PredictCondition {
  import opened Common
  import opened Features

  const Diabetes: string := "diabetes"
  const Copd: string := "copd"
  const Healthy: string := "healthy"

  /** `model.target_classes || ['healthy', 'diabetes', 'copd']` */
  const DefaultClasses: seq<string> := [Healthy, Diabetes, Copd]

  /**
   * The class list the scores are drawn over. A null list gives the
   * default; an empty array is truthy in JavaScript and is kept.
   */
  function TargetClasses(modelClasses: Option<seq<string>>): (classes: seq<string>)
    ensures modelClasses == None ==> classes == DefaultClasses
    ensures modelClasses.Some? ==> classes == modelClasses.value
  {
    match modelClasses
    case None => DefaultClasses
    case Some(cs) => cs
  }

  /** The threshold rule: the first test that fires decides the label. */
  function PredictLabel(f: FeatureVector): (condition: string)
    ensures condition == Diabetes <==> f.s0Mean > 600.0 || f.s1Mean > 500.0
    ensures condition == Copd <==>
              !(f.s0Mean > 600.0 || f.s1Mean > 500.0) && (f.s2Mean > 400.0 || f.s3Mean > 700.0)
    ensures condition == Healthy <==>
              !(f.s0Mean > 600.0 || f.s1Mean > 500.0) && !(f.s2Mean > 400.0 || f.s3Mean > 700.0)
  {
    if f.s0Mean > 600.0 || f.s1Mean > 500.0 then Diabetes
    else if f.s2Mean > 400.0 || f.s3Mean > 700.0 then Copd
    else Healthy
  }

  /** A high s0 channel selects diabetes whatever the other channels read. */
  lemma HighS0SelectsDiabetes(data: NumericData)
    requires "s0" in data && data["s0"] > 600.0
    ensures PredictLabel(Extract(data)) == Diabetes
  {
  }

  /**
   * The base confidence drawn for the label: [0.75, 0.95) for diabetes,
   * [0.70, 0.95) for copd and [0.60, 0.90) for healthy.
   */
  function BaseConfidence(condition: string, r: real): (c: real)
    requires IsUnitDraw(r)
    ensures condition == Diabetes ==> 0.75 <= c < 0.95
    ensures condition == Copd ==> 0.70 <= c < 0.95
    ensures condition != Diabetes && condition != Copd ==> 0.60 <= c < 0.90
    ensures 0.6 <= c < 0.95
  {
    if condition == Diabetes then 0.75 + r * 0.2
    else if condition == Copd then 0.70 + r * 0.25
    else 0.60 + r * 0.3
  }

  /** One key of `probabilityScores` with its value. */
  datatype Entry = Entry(cls: string, p: real)

  /** The keys of an object in the order they were first assigned. */
  function Keys(es: seq<Entry>): (ks: seq<string>)
    ensures |ks| == |es| && forall i :: 0 <= i < |es| ==> ks[i] == es[i].cls
  {
    if es == [] then [] else [es[0].cls] + Keys(es[1..])
  }

  /** `scores[k]`, with an absent key read as 0. */
  function Lookup(es: seq<Entry>, k: string): real
  {
    if es == [] then 0.0 else if es[0].cls == k then es[0].p else Lookup(es[1..], k)
  }

  /** `scores[k] = v`: overwrite the existing key in place, otherwise append it. */
  function Put(es: seq<Entry>, k: string, v: real): seq<Entry>
  {
    if es == [] then [Entry(k, v)]
    else if es[0].cls == k then [Entry(k, v)] + es[1..]
    else [es[0]] + Put(es[1..], k, v)
  }

  /** `Object.values(scores).reduce((sum, p) => sum + p, 0)` */
  function Total(es: seq<Entry>): real
  {
    if es == [] then 0.0 else es[0].p + Total(es[1..])
  }

  predicate NonNegative(es: seq<Entry>)
  {
    forall i :: 0 <= i < |es| ==> es[i].p >= 0.0
  }

  /** Assigning a key adds it once at the end if new and changes no other key or value. */
  lemma {:induction false} PutSpec(es: seq<Entry>, k: string, v: real)
    ensures Keys(Put(es, k, v)) == if k in Keys(es) then Keys(es) else Keys(es) + [k]
    ensures Lookup(Put(es, k, v), k) == v
    ensures forall j :: j != k ==> Lookup(Put(es, k, v), j) == Lookup(es, j)
    ensures Total(Put(es, k, v)) == Total(es) - Lookup(es, k) + v
    ensures NonNegative(es) && v >= 0.0 ==> NonNegative(Put(es, k, v))
  {
    if es != [] && es[0].cls != k {
      PutSpec(es[1..], k, v);
      var rest := Put(es[1..], k, v);
      assert Put(es, k, v) == [es[0]] + rest;
      assert Keys([es[0]] + rest) == [es[0].cls] + Keys(rest);
      assert ([es[0]] + rest)[1..] == rest;
      assert Keys(es) == [es[0].cls] + Keys(es[1..]);
      if NonNegative(es) && v >= 0.0 {
        assert forall i :: 0 <= i < |es| - 1 ==> es[1..][i] == es[i + 1];
      }
    } else if es != [] {
      assert ([Entry(k, v)] + es[1..])[1..] == es[1..];
    }
  }

  /** With non-negative values the total bounds every single value. */
  lemma {:induction false} LookupAtMostTotal(es: seq<Entry>, k: string)
    requires NonNegative(es)
    ensures 0.0 <= Lookup(es, k) <= Total(es)
    ensures 0.0 <= Total(es)
  {
    if es != [] {
      assert NonNegative(es[1..]) by {
        assert forall i :: 0 <= i < |es| - 1 ==> es[1..][i] == es[i + 1];
      }
      LookupAtMostTotal(es[1..], k);
    }
  }

  /** The scores filled so far and the probability left to hand out. */
  datatype FillState = FillState(scores: seq<Entry>, remaining: real)

  /** One iteration of the filling loop for class `cls`, with draw `r`. */
  function FillStep(st: FillState, cls: string, predicted: string, confidence: real, r: real): FillState
  {
    if cls == predicted then FillState(Put(st.scores, cls, confidence), st.remaining)
    else FillState(Put(st.scores, cls, r * st.remaining), st.remaining - r * st.remaining)
  }

  /**
   * The state after the loop has visited `classes` in order; `draws[i]` is
   * the value `Math.random()` returns at class `i` (unused at the predicted
   * class).
   */
  function Fill(classes: seq<string>, predicted: string, confidence: real, draws: seq<real>): FillState
    requires |draws| == |classes|
    decreases |classes|
  {
    if classes == [] then FillState([], 1.0 - confidence)
    else
      var n := |classes| - 1;
      FillStep(Fill(classes[..n], predicted, confidence, draws[..n]),
        classes[n], predicted, confidence, draws[n])
  }

  predicate ValidDraws(draws: seq<real>)
  {
    forall i :: 0 <= i < |draws| ==> IsUnitDraw(draws[i])
  }

  /** Visiting one more class is one more step of the loop. */
  lemma FillSnoc(classes: seq<string>, cls: string, predicted: string, confidence: real,
                 draws: seq<real>, r: real)
    requires |draws| == |classes|
    ensures Fill(classes + [cls], predicted, confidence, draws + [r])
            == FillStep(Fill(classes, predicted, confidence, draws), cls, predicted, confidence, r)
  {
    assert (classes + [cls])[..|classes|] == classes;
    assert (draws + [r])[..|draws|] == draws;
  }

  /** The bounds the filling loop keeps after visiting the classes `seen`. */
  predicate FillBounds(st: FillState, seen: seq<string>, predicted: string, confidence: real)
  {
    && NonNegative(st.scores)
    && 0.0 < st.remaining <= 1.0 - confidence
    && Total(st.scores) - Lookup(st.scores, predicted) <= (1.0 - confidence) - st.remaining
    && (predicted in seen ==> Lookup(st.scores, predicted) == confidence)
    && (predicted !in seen ==> Lookup(st.scores, predicted) == 0.0)
  }

  /** The facts the filling loop keeps after visiting the classes `seen`. */
  predicate FillInvariant(st: FillState, seen: seq<string>, predicted: string, confidence: real)
  {
    Keys(st.scores) == Dedup(seen) && FillBounds(st, seen, predicted, confidence)
  }

  /** Assigning the next class of `seen` keeps the keys equal to its distinct classes. */
  lemma PutKeepsKeysDistinct(es: seq<Entry>, seen: seq<string>, cls: string, v: real)
    requires Keys(es) == Dedup(seen)
    ensures Keys(Put(es, cls, v)) == Dedup(seen + [cls])
  {
    var seen' := seen + [cls];
    assert seen'[..|seen|] == seen && seen'[|seen|] == cls;
    PutSpec(es, cls, v);
  }

  /** At the predicted class the step stores `confidence` and leaves the rest. */
  lemma FillStepPredicted(st: FillState, predicted: string, confidence: real, r: real)
    ensures FillStep(st, predicted, predicted, confidence, r).scores == Put(st.scores, predicted, confidence)
    ensures FillStep(st, predicted, predicted, confidence, r).remaining == st.remaining
  {
  }

  /**
   * At a class other than the predicted one the step gives it `r` times
   * what is left, which lies between nothing and all of it, and takes that
   * share off.
   */
  lemma FillStepOther(st: FillState, cls: string, predicted: string, confidence: real, r: real)
    requires cls != predicted && IsUnitDraw(r) && 0.0 < st.remaining
    ensures 0.0 <= r * st.remaining < st.remaining
    ensures FillStep(st, cls, predicted, confidence, r).scores == Put(st.scores, cls, r * st.remaining)
    ensures FillStep(st, cls, predicted, confidence, r).remaining == st.remaining - r * st.remaining
  {
    FillStepOtherUnfold(st, cls, predicted, confidence, r);
    ShareBounds(r, st.remaining);
  }

  lemma FillStepOtherUnfold(st: FillState, cls: string, predicted: string, confidence: real, r: real)
    requires cls != predicted
    ensures FillStep(st, cls, predicted, confidence, r).scores == Put(st.scores, cls, r * st.remaining)
    ensures FillStep(st, cls, predicted, confidence, r).remaining == st.remaining - r * st.remaining
  {
  }

  /** One iteration at the predicted class keeps the bounds. */
  lemma FillStepBoundsPredicted(st: FillState, next: FillState, seen: seq<string>,
                                predicted: string, confidence: real)
    requires 0.0 <= confidence < 1.0
    requires FillBounds(st, seen, predicted, confidence)
    requires next.scores == Put(st.scores, predicted, confidence) && next.remaining == st.remaining
    ensures FillBounds(next, seen + [predicted], predicted, confidence)
  {
    assert predicted in seen + [predicted];
    PutSpec(st.scores, predicted, confidence);
  }

  /** A share `r` in [0, 1) of a positive amount is non-negative and less than the amount. */
  lemma ShareBounds(r: real, x: real)
    requires IsUnitDraw(r) && 0.0 < x
    ensures 0.0 <= r * x < x
  {
    assert r * x < 1.0 * x;
  }

  /** One iteration at another class, which receives `prob`, keeps the bounds. */
  lemma PutShareKeepsBounds(st: FillState, next: FillState, seen: seq<string>, cls: string,
                            predicted: string, confidence: real, prob: real)
    requires cls != predicted && 0.0 <= prob < st.remaining
    requires FillBounds(st, seen, predicted, confidence)
    requires next.scores == Put(st.scores, cls, prob) && next.remaining == st.remaining - prob
    ensures FillBounds(next, seen + [cls], predicted, confidence)
  {
    assert predicted in seen + [cls] <==> predicted in seen;
    PutSpec(st.scores, cls, prob);
    LookupAtMostTotal(st.scores, cls);
  }

  /** One iteration keeps the invariant. */
  lemma FillStepKeepsInvariant(st: FillState, seen: seq<string>, cls: string,
                               predicted: string, confidence: real, r: real)
    requires 0.0 <= confidence < 1.0 && IsUnitDraw(r)
    requires FillInvariant(st, seen, predicted, confidence)
    ensures FillInvariant(FillStep(st, cls, predicted, confidence, r), seen + [cls], predicted, confidence)
  {
    var next := FillStep(st, cls, predicted, confidence, r);
    if cls == predicted {
      FillStepPredicted(st, predicted, confidence, r);
      PutKeepsKeysDistinct(st.scores, seen, cls, confidence);
      FillStepBoundsPredicted(st, next, seen, predicted, confidence);
    } else {
      var prob := r * st.remaining;
      FillStepOther(st, cls, predicted, confidence, r);
      PutKeepsKeysDistinct(st.scores, seen, cls, prob);
      PutShareKeepsBounds(st, next, seen, cls, predicted, confidence, prob);
    }
  }

  /**
   * What the filling loop guarantees: the keys are the distinct classes in
   * first-occurrence order; every share is non-negative; `remainingProb`
   * never goes negative; the shares of the classes other than the predicted
   * one add up to at most `1 - confidence` (the leftover is what was not
   * handed out); and a listed predicted class holds exactly `confidence`.
   */
  lemma {:induction false} FillSpec(classes: seq<string>, predicted: string, confidence: real, draws: seq<real>)
    requires |draws| == |classes| && ValidDraws(draws)
    requires 0.0 <= confidence < 1.0
    ensures FillInvariant(Fill(classes, predicted, confidence, draws), classes, predicted, confidence)
    decreases |classes|
  {
    if classes != [] {
      var n := |classes| - 1;
      var pre, ds := classes[..n], draws[..n];
      assert ValidDraws(ds) by {
        assert forall i :: 0 <= i < n ==> ds[i] == draws[i];
      }
      FillSpec(pre, predicted, confidence, ds);
      assert IsUnitDraw(draws[n]);
      FillStepKeepsInvariant(Fill(pre, predicted, confidence, ds), pre, classes[n],
        predicted, confidence, draws[n]);
      assert pre + [classes[n]] == classes;
    }
  }

  /**
   * The first loop of the handler: `remainingProb` starts at
   * `1 - confidence`; the predicted class gets `confidence`, every other
   * class a random share of what is left, which is then taken off.
   */
  method FillScores(classes: seq<string>, predicted: string, confidence: real, draws: seq<real>)
    returns (scores: seq<Entry>, remaining: real)
    requires |draws| == |classes|
    ensures FillState(scores, remaining) == Fill(classes, predicted, confidence, draws)
  {
    scores := [];
    remaining := 1.0 - confidence;
    var i := 0;
    while i < |classes|
      invariant 0 <= i <= |classes|
      invariant FillState(scores, remaining) == Fill(classes[..i], predicted, confidence, draws[..i])
    {
      var cls := classes[i];
      FillSnoc(classes[..i], cls, predicted, confidence, draws[..i], draws[i]);
      assert classes[..i] + [cls] == classes[..i + 1] && draws[..i] + [draws[i]] == draws[..i + 1];
      ghost var next := FillStep(FillState(scores, remaining), cls, predicted, confidence, draws[i]);
      if cls == predicted {
        scores := Put(scores, cls, confidence);
      } else {
        var prob := draws[i] * remaining;
        scores := Put(scores, cls, prob);
        remaining := remaining - prob;
      }
      assert scores == next.scores && remaining == next.remaining;
      i := i + 1;
    }
    assert classes[..i] == classes && draws[..i] == draws;
  }

  /**
   * The scores after normalisation. Dividing by a zero total (no class
   * received anything) gives NaN for every key in JavaScript.
   */
  datatype ProbabilityScores =
    | Normalised(entries: seq<Entry>)
    | NaNScores(keys: seq<string>)

  /** Every value divided by `t`. */
  function Scale(es: seq<Entry>, t: real): (r: seq<Entry>)
    requires t != 0.0
    ensures |r| == |es|
    ensures forall i :: 0 <= i < |es| ==> r[i] == Entry(es[i].cls, es[i].p / t)
  {
    if es == [] then [] else [Entry(es[0].cls, es[0].p / t)] + Scale(es[1..], t)
  }

  /**
   * The normalisation the second loop performs on `scores`, which are never
   * negative: a zero total means every score is 0, and 0 / 0 is NaN.
   */
  function NormaliseSpec(es: seq<Entry>): ProbabilityScores
    requires NonNegative(es)
  {
    var t := Total(es);
    if t == 0.0 then (if es == [] then Normalised([]) else NaNScores(Keys(es)))
    else Normalised(Scale(es, t))
  }

  /** Scaling divides the total by the same factor. */
  lemma {:induction false} TotalScale(es: seq<Entry>, t: real)
    requires t != 0.0
    ensures Total(Scale(es, t)) == Total(es) / t
  {
    if es != [] {
      TotalScale(es[1..], t);
      assert Scale(es, t)[1..] == Scale(es[1..], t);
    }
  }

  lemma DivideKeepsOrder(a: real, b: real, t: real)
    requires t > 0.0
    ensures a <= b <==> a / t <= b / t
  {
    if a <= b {
      assert b / t - a / t == (b - a) / t;
    } else {
      assert a / t - b / t == (a - b) / t;
    }
  }

  /** Dividing by a positive total keeps the order of two values. */
  lemma ScaleKeepsOrder(es: seq<Entry>, t: real, i: nat, j: nat)
    requires t > 0.0 && i < |es| && j < |es|
    ensures es[i].p <= es[j].p <==> Scale(es, t)[i].p <= Scale(es, t)[j].p
  {
    DivideKeepsOrder(es[i].p, es[j].p, t);
  }

  /** Dividing by the total keeps the keys in their order. */
  lemma ScaleKeepsKeys(es: seq<Entry>, t: real)
    requires t != 0.0
    ensures Keys(Scale(es, t)) == Keys(es)
  {
    assert |Keys(Scale(es, t))| == |Keys(es)|;
  }

  /** Dividing by a positive total keeps the ranking of the classes. */
  lemma ScaleKeepsRanking(es: seq<Entry>, t: real)
    requires t > 0.0
    ensures forall i, j :: 0 <= i < |es| && 0 <= j < |es| ==>
              (es[i].p <= es[j].p <==> Scale(es, t)[i].p <= Scale(es, t)[j].p)
  {
    forall i, j | 0 <= i < |es| && 0 <= j < |es|
      ensures es[i].p <= es[j].p <==> Scale(es, t)[i].p <= Scale(es, t)[j].p
    {
      ScaleKeepsOrder(es, t, i, j);
    }
  }

  lemma DivideBySelf(t: real)
    requires t != 0.0
    ensures t / t == 1.0
  {
  }

  /** Dividing every value by the total makes the values add up to 1. */
  lemma ScaledTotalIsOne(es: seq<Entry>)
    requires Total(es) != 0.0
    ensures Total(Scale(es, Total(es))) == 1.0
  {
    var t := Total(es);
    TotalScale(es, t);
    DivideBySelf(t);
  }

  /** Dividing non-negative values by a positive total keeps them non-negative. */
  lemma ScaleNonNegative(es: seq<Entry>, t: real)
    requires NonNegative(es) && t > 0.0
    ensures NonNegative(Scale(es, t))
  {
    var r := Scale(es, t);
    forall i | 0 <= i < |es| ensures r[i].p >= 0.0 {
      assert es[i].p >= 0.0;
    }
  }

  /**
   * After normalisation of non-negative scores with a positive total every
   * score is non-negative, the scores add up to 1, the keys are unchanged
   * and the classes keep their ranking.
   */
  lemma NormaliseSpecProperties(es: seq<Entry>)
    requires NonNegative(es) && Total(es) > 0.0
    ensures NormaliseSpec(es) == Normalised(Scale(es, Total(es)))
    ensures var r := Scale(es, Total(es));
            && Keys(r) == Keys(es)
            && NonNegative(r)
            && Total(r) == 1.0
            && forall i, j :: 0 <= i < |es| && 0 <= j < |es| ==> (es[i].p <= es[j].p <==> r[i].p <= r[j].p)
  {
    var t := Total(es);
    ScaledTotalIsOne(es);
    ScaleNonNegative(es, t);
    ScaleKeepsKeys(es, t);
    ScaleKeepsRanking(es, t);
  }

  /** The second loop: `scores[cls] = scores[cls] / totalProb`, key by key, in place. */
  method Normalise(es: seq<Entry>) returns (r: ProbabilityScores)
    requires NonNegative(es)
    ensures r == NormaliseSpec(es)
  {
    var total := Total(es);
    if total == 0.0 {
      if es == [] {
        return Normalised([]);
      }
      return NaNScores(Keys(es));
    }
    var scores := es;
    var i := 0;
    while i < |scores|
      invariant 0 <= i <= |scores| == |es|
      invariant forall k :: 0 <= k < i ==> scores[k] == Entry(es[k].cls, es[k].p / total)
      invariant forall k :: i <= k < |es| ==> scores[k] == es[k]
    {
      scores := scores[i := Entry(scores[i].cls, scores[i].p / total)];
      i := i + 1;
    }
    r := Normalised(scores);
  }

  /** The probability scores of one prediction, as a function of the injected draws. */
  function Scores(classes: seq<string>, predicted: string, confidence: real, draws: seq<real>): ProbabilityScores
    requires |draws| == |classes| && ValidDraws(draws)
    requires 0.0 <= confidence < 1.0
  {
    FillSpec(classes, predicted, confidence, draws);
    NormaliseSpec(Fill(classes, predicted, confidence, draws).scores)
  }

  /**
   * Whenever the predicted class is among the target classes the result is
   * a distribution over exactly the distinct target classes: non-negative
   * and summing to 1.
   */
  lemma ScoresAreDistribution(classes: seq<string>, predicted: string, confidence: real, draws: seq<real>)
    requires |draws| == |classes| && ValidDraws(draws)
    requires 0.0 < confidence < 1.0
    requires predicted in classes
    ensures Scores(classes, predicted, confidence, draws).Normalised?
    ensures var es := Scores(classes, predicted, confidence, draws).entries;
            Keys(es) == Dedup(classes) && NonNegative(es) && Total(es) == 1.0
  {
    var st := Fill(classes, predicted, confidence, draws);
    FillSpec(classes, predicted, confidence, draws);
    LookupAtMostTotal(st.scores, predicted);
    NormaliseSpecProperties(st.scores);
  }

  /** With every draw 0 no other class receives anything, so nothing is taken off. */
  lemma {:induction false} ZeroDrawsKeepRemaining(classes: seq<string>, predicted: string,
                                                  confidence: real, draws: seq<real>)
    requires |draws| == |classes| && forall i :: 0 <= i < |draws| ==> draws[i] == 0.0
    ensures Fill(classes, predicted, confidence, draws).remaining == 1.0 - confidence
    decreases |classes|
  {
    if classes != [] {
      var n := |classes| - 1;
      var ds := draws[..n];
      assert forall i :: 0 <= i < n ==> ds[i] == draws[i];
      ZeroDrawsKeepRemaining(classes[..n], predicted, confidence, ds);
      var st := Fill(classes[..n], predicted, confidence, ds);
      if classes[n] == predicted {
        FillStepPredicted(st, predicted, confidence, draws[n]);
      } else {
        FillStepOtherUnfold(st, classes[n], predicted, confidence, draws[n]);
        assert draws[n] * st.remaining == 0.0;
      }
    }
  }

  /**
   * When the class list omits the predicted label and every draw is 0,
   * every class receives 0 and the normalisation divides 0 by 0: every
   * score is NaN.
   */
  lemma UnlistedPredictionCanGiveNaN(classes: seq<string>, predicted: string,
                                     confidence: real, draws: seq<real>)
    requires |draws| == |classes| && forall i :: 0 <= i < |draws| ==> draws[i] == 0.0
    requires 0.0 <= confidence < 1.0
    requires classes != [] && predicted !in classes
    ensures Scores(classes, predicted, confidence, draws) == NaNScores(Dedup(classes))
  {
    assert ValidDraws(draws);
    var st := Fill(classes, predicted, confidence, draws);
    FillSpec(classes, predicted, confidence, draws);
    ZeroDrawsKeepRemaining(classes, predicted, confidence, draws);
    LookupAtMostTotal(st.scores, predicted);
    DedupSpec(classes);
    assert classes[0] in Dedup(classes);
    assert st.scores != [];
  }

  /** Reading a key after scaling gives its value divided by the factor. */
  lemma {:induction false} LookupScale(es: seq<Entry>, t: real, k: string)
    requires t != 0.0
    ensures Lookup(Scale(es, t), k) == Lookup(es, k) / t
  {
    if es != [] {
      LookupScale(es[1..], t, k);
      assert Scale(es, t)[1..] == Scale(es[1..], t);
    }
  }

  lemma DivideByLessThanOne(c: real, t: real)
    requires 0.0 < c <= t < 1.0
    ensures c / t > c
  {
    assert c * (1.0 - t) > 0.0;
    assert c / t - c == (c * (1.0 - t)) / t;
  }

  /**
   * The normalised score of a listed predicted class is always strictly
   * larger than the confidence the prediction reports: the other classes
   * never use up all of `1 - confidence`, so the total stays below 1.
   */
  lemma ReportedConfidenceBelowScore(classes: seq<string>, predicted: string,
                                     confidence: real, draws: seq<real>)
    requires |draws| == |classes| && ValidDraws(draws)
    requires 0.0 < confidence < 1.0
    requires predicted in classes
    ensures Scores(classes, predicted, confidence, draws).Normalised?
    ensures Lookup(Scores(classes, predicted, confidence, draws).entries, predicted) > confidence
  {
    var st := Fill(classes, predicted, confidence, draws);
    FillSpec(classes, predicted, confidence, draws);
    LookupAtMostTotal(st.scores, predicted);
    var t := Total(st.scores);
    assert 0.0 < confidence <= t < 1.0;
    LookupScale(st.scores, t, predicted);
    DivideByLessThanOne(confidence, t);
  }

  datatype Prediction = Prediction(
    condition: string,
    confidence: real,
    probabilityScores: ProbabilityScores,
    sensorContributions: ChannelWeights)

  /** The injected values of `Math.random()`, in the order the handler calls it. */
  datatype PredictDraws = PredictDraws(confidence: real, classes: seq<real>, contributions: seq<real>)

  predicate WellFormedDraws(d: PredictDraws, classCount: nat)
  {
    IsUnitDraw(d.confidence) && |d.classes| == classCount && ValidDraws(d.classes)
    && |d.contributions| == 6 && ValidDraws(d.contributions)
  }

  /**
   * The prediction for one reading: the label by threshold, its base
   * confidence, the normalised scores and the contributions. The reported
   * confidence is the value before normalisation.
   */
  method Predict(data: NumericData, modelClasses: Option<seq<string>>, draws: PredictDraws)
    returns (p: Prediction)
    requires WellFormedDraws(draws, |TargetClasses(modelClasses)|)
    ensures p.condition == PredictLabel(Extract(data))
    ensures p.confidence == BaseConfidence(p.condition, draws.confidence)
    ensures p.probabilityScores ==
              Scores(TargetClasses(modelClasses), p.condition, p.confidence, draws.classes)
    ensures p.sensorContributions == DrawWeights(draws.contributions)
    ensures 0.6 <= p.confidence < 0.95
    ensures p.condition in TargetClasses(modelClasses) ==>
              p.probabilityScores.Normalised?
              && Keys(p.probabilityScores.entries) == Dedup(TargetClasses(modelClasses))
              && NonNegative(p.probabilityScores.entries)
              && Total(p.probabilityScores.entries) == 1.0
  {
    var features := Extract(data);
    var classes := TargetClasses(modelClasses);
    var condition := PredictLabel(features);
    var confidence := BaseConfidence(condition, draws.confidence);
    var scores, _ := FillScores(classes, condition, confidence, draws.classes);
    FillSpec(classes, condition, confidence, draws.classes);
    var normalised := Normalise(scores);
    if condition in classes {
      ScoresAreDistribution(classes, condition, confidence, draws.classes);
    }
    p := Prediction(condition, confidence, normalised, DrawWeights(draws.contributions));
  }
}

=== FILE: realtime.dfy ===
/**
 * One tick of the real-time predictor panel: the biomarker readings drift
 * within their clamps, a condition is picked by cumulative weight, its
 * confidence is drawn, and the prediction is pushed onto a ten-entry,
 * newest-first history.
 *
 * Every `Math.random()` is an injected value; the displayed time is a
 * parameter.
 */
module RealTimePredictor {
  import opened Common
  import opened Features

  const Healthy: string := "Healthy"

  const Conditions: seq<string> := [Healthy, "Diabetes", "Kidney Disease", "COPD", "Asthma"]

  const Weights: seq<real> := [0.4, 0.25, 0.15, 0.12, 0.08]

  /** The running total after the first `i` weights. */
  function CumulativeWeight(i: nat): real
    requires i <= |Weights|
  {
    Sum(Weights[..i])
  }

  /** The running total that a draw must not exceed to select condition `j`. */
  function Threshold(j: nat): real
    requires j < |Weights|
  {
    CumulativeWeight(j + 1)
  }

  /** The running totals are 0.4, 0.65, 0.8, 0.92 and 1. */
  lemma CumulativeWeights()
    ensures CumulativeWeight(0) == 0.0
    ensures CumulativeWeight(1) == 0.4
    ensures CumulativeWeight(2) == 0.65
    ensures CumulativeWeight(3) == 0.8
    ensures CumulativeWeight(4) == 0.92
    ensures CumulativeWeight(5) == 1.0
  {
    assert Weights[..5] == Weights && Weights[..5][..4] == Weights[..4];
    assert Weights[..4][..3] == Weights[..3] && Weights[..3][..2] == Weights[..2];
    assert Weights[..2][..1] == Weights[..1] && Weights[..1][..0] == Weights[..0];
  }

  /** The position of the first condition from `i` on whose running total reaches `r`, or -1. */
  function FirstReached(r: real, i: nat): (k: int)
    requires i <= |Weights|
    ensures k == -1 || i <= k < |Weights|
    ensures k >= 0 ==> r <= CumulativeWeight(k + 1)
    ensures k >= 0 ==> forall j :: i <= j < k ==> r > Threshold(j)
    ensures k == -1 ==> forall j :: i <= j < |Weights| ==> r > Threshold(j)
    decreases |Weights| - i
  {
    if i == |Weights| then -1
    else if r <= CumulativeWeight(i + 1) then i
    else FirstReached(r, i + 1)
  }

  /** The condition the weighted pick selects for the draw `r`; 'Healthy' when none is reached. */
  function Pick(r: real): (condition: string)
    ensures condition in Conditions
  {
    var k := FirstReached(r, 0);
    if k == -1 then Healthy else Conditions[k]
  }

  /**
   * The pick loop: adds the weights one by one and stops at the first
   * condition whose running total reaches the draw.
   */
  method PickCondition(r: real) returns (condition: string)
    ensures condition == Pick(r)
  {
    var cumulative := 0.0;
    condition := Healthy;
    var i := 0;
    while i < |Conditions|
      invariant 0 <= i <= |Weights|
      invariant cumulative == CumulativeWeight(i)
      invariant forall j :: 0 <= j < i ==> r > Threshold(j)
      invariant condition == Healthy
    {
      assert Weights[..i + 1] == Weights[..i] + [Weights[i]];
      cumulative := cumulative + Weights[i];
      if r <= cumulative {
        condition := Conditions[i];
        assert FirstReached(r, 0) == i by {
          FirstReachedSkips(r, 0, i);
        }
        return;
      }
      i := i + 1;
    }
    FirstReachedSkips(r, 0, i);
  }

  /** Positions whose running total stays below `r` are skipped. */
  lemma {:induction false} FirstReachedSkips(r: real, i: nat, k: nat)
    requires i <= k <= |Weights|
    requires forall j :: i <= j < k ==> r > Threshold(j)
    ensures FirstReached(r, i) == FirstReached(r, k)
    decreases k - i
  {
    if i < k {
      assert r > Threshold(i);
      FirstReachedSkips(r, i + 1, k);
    }
  }

  /**
   * The pick partitions [0, 1] into bands: up to 0.4 'Healthy', up to 0.65
   * 'Diabetes', up to 0.8 'Kidney Disease', up to 0.92 'COPD', up to 1
   * 'Asthma'.
   */
  lemma {:induction false} PickBands(r: real)
    requires 0.0 <= r <= 1.0
    ensures r <= 0.4 ==> FirstReached(r, 0) == 0
    ensures 0.4 < r <= 0.65 ==> FirstReached(r, 0) == 1
    ensures 0.65 < r <= 0.8 ==> FirstReached(r, 0) == 2
    ensures 0.8 < r <= 0.92 ==> FirstReached(r, 0) == 3
    ensures 0.92 < r ==> FirstReached(r, 0) == 4
  {
    CumulativeWeights();
  }

  /** A draw in [0, 1] always reaches some condition, so the fallback is never taken. */
  lemma DrawReachesCondition(r: real)
    requires 0.0 <= r <= 1.0
    ensures 0 <= FirstReached(r, 0) < |Conditions|
    ensures Pick(r) == Conditions[FirstReached(r, 0)]
  {
    PickBands(r);
  }

  /** A draw of at most 0.4 selects 'Healthy'. */
  lemma LowDrawSelectsHealthy(r: real)
    requires 0.0 <= r <= 0.4
    ensures Pick(r) == Healthy
  {
    PickBands(r);
  }

  /** A larger draw never selects an earlier condition. */
  lemma PickMonotone(r1: real, r2: real)
    requires 0.0 <= r1 <= r2 <= 1.0
    ensures FirstReached(r1, 0) <= FirstReached(r2, 0)
  {
    PickBands(r1);
    PickBands(r2);
  }

  /** `85 + Math.random() * 13` */
  function Confidence(r: real): (c: real)
    requires IsUnitDraw(r)
    ensures 85.0 <= c < 98.0
  {
    85.0 + r * 13.0
  }

  /** `confidence / 100` */
  function Probability(confidence: real): (p: real)
    ensures p * 100.0 == confidence
    ensures 85.0 <= confidence < 98.0 ==> 0.85 <= p < 0.98
  {
    confidence / 100.0
  }

  datatype PredictionResult = PredictionResult(
    condition: string, confidence: real, probability: real, timestamp: string)

  /** `[newPrediction, ...prev.slice(0, 9)]` */
  function PushHistory(history: seq<PredictionResult>, p: PredictionResult): (h: seq<PredictionResult>)
    ensures |h| == if |history| < 10 then |history| + 1 else 10
    ensures h[0] == p
    ensures forall i :: 1 <= i < |h| ==> h[i] == history[i - 1]
  {
    [p] + (if |history| <= 9 then history else history[..9])
  }

  /** The history after pushing `ps` in order onto an empty one. */
  function Replay(ps: seq<PredictionResult>): seq<PredictionResult>
    decreases |ps|
  {
    if ps == [] then [] else PushHistory(Replay(ps[..|ps| - 1]), ps[|ps| - 1])
  }

  /** The elements of `s` from last to first. */
  function Reverse<T>(s: seq<T>): (r: seq<T>)
    ensures |r| == |s| && forall i :: 0 <= i < |s| ==> r[i] == s[|s| - 1 - i]
  {
    seq(|s|, i requires 0 <= i < |s| => s[|s| - 1 - i])
  }

  /** The last `min(10, |ps|)` predictions. */
  function LastTen<T>(ps: seq<T>): (t: seq<T>)
    ensures |t| == if |ps| < 10 then |ps| else 10
  {
    if |ps| <= 10 then ps else ps[|ps| - 10..]
  }

  /** Keeping the last ten before appending loses nothing that the last ten after it need. */
  lemma LastTenSnoc<T>(ps: seq<T>, x: T)
    ensures LastTen(LastTen(ps) + [x]) == LastTen(ps + [x])
  {
    if |ps| > 10 {
      assert LastTen(ps) + [x] == (ps + [x])[|ps| - 10..];
    }
  }

  /** A window of at most ten with one entry appended, trimmed back to ten. */
  lemma LastTenAppend<T>(window: seq<T>, x: T)
    requires |window| <= 10
    ensures |window| == 10 ==> LastTen(window + [x]) == window[1..] + [x]
    ensures |window| < 10 ==> LastTen(window + [x]) == window + [x]
  {
    if |window| == 10 {
      assert (window + [x])[1..] == window[1..] + [x];
    }
  }

  /** Pushing onto a reversed window of at most ten is reversing the window with the new entry. */
  lemma PushReversed(window: seq<PredictionResult>, p: PredictionResult)
    requires |window| <= 10
    ensures PushHistory(Reverse(window), p) == Reverse(LastTen(window + [p]))
  {
    LastTenAppend(window, p);
    var w := LastTen(window + [p]);
    var h := PushHistory(Reverse(window), p);
    var r := Reverse(w);
    var n := |window|;
    assert |h| == |r|;
    forall i | 0 <= i < |h|
      ensures h[i] == r[i]
    {
      if i > 0 {
        assert h[i] == window[n - i];
        assert r[i] == w[|w| - 1 - i];
      }
    }
  }

  /**
   * The history always holds the last ten predictions (fewer before the
   * tenth), newest first.
   */
  lemma {:induction false} ReplayIsLastTenNewestFirst(ps: seq<PredictionResult>)
    ensures Replay(ps) == Reverse(LastTen(ps))
    decreases |ps|
  {
    if ps != [] {
      var pre, p := ps[..|ps| - 1], ps[|ps| - 1];
      assert ps == pre + [p];
      ReplayIsLastTenNewestFirst(pre);
      PushReversed(LastTen(pre), p);
      LastTenSnoc(pre, p);
    }
  }

  /** One compound's reading on the panel. */
  datatype Biomarker = Biomarker(
    compound: string, concentration: real, normalized: real, contribution: real, confidence: real)

  /** The four values drawn for one reading, in the order they are drawn. */
  datatype BiomarkerDraws = BiomarkerDraws(concentration: real, normalized: real, contribution: real, confidence: real)

  function Max(a: real, b: real): real { if a >= b then a else b }

  function Min(a: real, b: real): real { if a <= b then a else b }

  /** `Math.max(lo, Math.min(hi, x))` */
  function Clamp(lo: real, hi: real, x: real): (y: real)
    requires lo <= hi
    ensures lo <= y <= hi
    ensures lo <= x <= hi ==> y == x
  {
    Max(lo, Min(hi, x))
  }

  /**
   * One drift step: each value moves by `(r - 0.5)` times its step and is
   * clamped. The bounds hold whatever the previous values and draws.
   */
  function UpdateBiomarker(b: Biomarker, d: BiomarkerDraws): (u: Biomarker)
    ensures u.compound == b.compound
    ensures u.concentration >= 0.0
    ensures 0.0 <= u.normalized <= 1.0 && 0.0 <= u.contribution <= 1.0
    ensures 0.5 <= u.confidence <= 1.0
  {
    b.(concentration := Max(0.0, b.concentration + (d.concentration - 0.5) * 0.2),
       normalized := Clamp(0.0, 1.0, b.normalized + (d.normalized - 0.5) * 0.1),
       contribution := Clamp(0.0, 1.0, b.contribution + (d.contribution - 0.5) * 0.08),
       confidence := Clamp(0.5, 1.0, b.confidence + (d.confidence - 0.5) * 0.05))
  }

  /** `prev.map(...)`: every reading drifts, the list keeps its compounds and length. */
  function UpdateBiomarkers(bs: seq<Biomarker>, ds: seq<BiomarkerDraws>): (us: seq<Biomarker>)
    requires |ds| == |bs|
    ensures |us| == |bs|
    ensures forall i :: 0 <= i < |bs| ==> us[i] == UpdateBiomarker(bs[i], ds[i])
  {
    if bs == [] then [] else [UpdateBiomarker(bs[0], ds[0])] + UpdateBiomarkers(bs[1..], ds[1..])
  }

  const InitialBiomarkers: seq<Biomarker> := [
    Biomarker("Acetone", 2.45, 0.73, 0.42, 0.89),
    Biomarker("Ammonia", 1.89, 0.82, 0.38, 0.94),
    Biomarker("Ethanol", 0.56, 0.65, 0.15, 0.76),
    Biomarker("Isoprene", 0.34, 0.58, 0.05, 0.68)
  ]

  /** The bounds the clamps keep: a non-negative concentration and the three clamped ranges. */
  predicate InBounds(b: Biomarker)
  {
    b.concentration >= 0.0 && 0.0 <= b.normalized <= 1.0 && 0.0 <= b.contribution <= 1.0
    && 0.5 <= b.confidence <= 1.0
  }

  /**
   * The panel starts inside the bounds and every tick keeps it there, so
   * every reading ever shown is inside them.
   */
  lemma BiomarkersStayInBounds(bs: seq<Biomarker>, ds: seq<BiomarkerDraws>)
    requires |ds| == |bs|
    ensures forall i :: 0 <= i < |InitialBiomarkers| ==> InBounds(InitialBiomarkers[i])
    ensures forall i :: 0 <= i < |bs| ==> InBounds(UpdateBiomarkers(bs, ds)[i])
  {
  }

  /** The panel state one tick reads and writes. */
  datatype PanelState = PanelState(
    biomarkers: seq<Biomarker>,
    current: Option<PredictionResult>,
    history: seq<PredictionResult>)

  /** The values `Math.random()` returns during one tick, as independent parameters. */
  datatype TickDraws = TickDraws(biomarkers: seq<BiomarkerDraws>, pick: real, confidence: real)

  /** One interval tick, before the display rounding of confidence and probability. */
  function Tick(s: PanelState, d: TickDraws, time: string): (t: PanelState)
    requires |d.biomarkers| == |s.biomarkers| && IsUnitDraw(d.confidence)
    ensures t.biomarkers == UpdateBiomarkers(s.biomarkers, d.biomarkers)
    ensures t.current.Some? && t.current.value.condition == Pick(d.pick)
    ensures 85.0 <= t.current.value.confidence < 98.0
    ensures t.current.value.probability * 100.0 == t.current.value.confidence
    ensures t.history == PushHistory(s.history, t.current.value)
    ensures |t.history| <= 10
  {
    var confidence := Confidence(d.confidence);
    var p := PredictionResult(Pick(d.pick), confidence, Probability(confidence), time);
    PanelState(UpdateBiomarkers(s.biomarkers, d.biomarkers), Some(p), PushHistory(s.history, p))
  }
}

=== FILE: training.dfy ===
/**
 * The background training job of the `ml-training` function: feature rows
 * from the readings, the failure path, the ten-step progress schedule, the
 * simulated metrics, the label set, the confusion matrix and the counts
 * written to the session record.
 *
 * Every `Math.random()` is an injected value in [0, 1); the database rows
 * the job reads and writes are parameters and fields.
 */
module MlTraining {
  import opened Common
  import opened Features

  const DefaultLabel: string := "healthy"

  /** One training reading: its `sensor_data` and the patient's `condition` (null when absent). */
  datatype TrainingReading = TrainingReading(sensorData: NumericData, condition: Option<string>)

  /** One row of the feature table: the six means and the label (`tag`). */
  datatype FeatureRow = FeatureRow(features: FeatureVector, tag: string)

  /** `condition || 'healthy'`: a null or empty condition becomes `'healthy'`. */
  function LabelOf(condition: Option<string>): (name: string)
    ensures condition.Some? && condition.value != "" ==> name == condition.value
    ensures condition == None || condition == Some("") ==> name == DefaultLabel
    ensures name != ""
  {
    match condition
    case Some(c) => if c != "" then c else DefaultLabel
    case None => DefaultLabel
  }

  /** The feature table, one row per reading. */
  function FeatureRows(readings: seq<TrainingReading>): (rows: seq<FeatureRow>)
    ensures |rows| == |readings|
    ensures forall i :: 0 <= i < |readings| ==>
              rows[i].features == Extract(readings[i].sensorData)
              && rows[i].tag == LabelOf(readings[i].condition)
  {
    if readings == [] then []
    else
      [FeatureRow(Extract(readings[0].sensorData), LabelOf(readings[0].condition))]
      + FeatureRows(readings[1..])
  }

  /** Every row carries a non-empty label, and the defaults apply per reading. */
  lemma FeatureRowDefaults(readings: seq<TrainingReading>, i: nat)
    requires i < |readings|
    ensures FeatureRows(readings)[i].tag != ""
    ensures "temp" !in readings[i].sensorData ==> FeatureRows(readings)[i].features.tempMean == 25.0
    ensures "humidity" !in readings[i].sensorData ==> FeatureRows(readings)[i].features.humidityMean == 50.0
    ensures "s0" !in readings[i].sensorData ==> FeatureRows(readings)[i].features.s0Mean == 0.0
    ensures "s1" !in readings[i].sensorData ==> FeatureRows(readings)[i].features.s1Mean == 0.0
    ensures "s2" !in readings[i].sensorData ==> FeatureRows(readings)[i].features.s2Mean == 0.0
    ensures "s3" !in readings[i].sensorData ==> FeatureRows(readings)[i].features.s3Mean == 0.0
  {
  }

  /** The label column of the feature table. */
  function LabelColumn(rows: seq<FeatureRow>): (ls: seq<string>)
    ensures |ls| == |rows| && forall i :: 0 <= i < |rows| ==> ls[i] == rows[i].tag
  {
    if rows == [] then [] else [rows[0].tag] + LabelColumn(rows[1..])
  }

  /**
   * `[...new Set(features.map(f => f.label))]`: every label of the table
   * exactly once, in the order of its first occurrence.
   */
  function DistinctLabels(rows: seq<FeatureRow>): (labels: seq<string>)
    ensures NoDuplicates(labels)
    ensures forall l :: l in labels <==> l in LabelColumn(rows)
    ensures forall l :: l in labels <==> exists i :: 0 <= i < |rows| && rows[i].tag == l
    ensures forall i, j :: 0 <= i < j < |labels| ==>
              FirstIndex(LabelColumn(rows), labels[i]) < FirstIndex(LabelColumn(rows), labels[j])
  {
    var column := LabelColumn(rows);
    DedupSpec(column);
    assert forall l :: l in column <==> exists i :: 0 <= i < |rows| && rows[i].tag == l by {
      forall l | l in column ensures exists i :: 0 <= i < |rows| && rows[i].tag == l {
        var i :| 0 <= i < |column| && column[i] == l;
        assert rows[i].tag == l;
      }
    }
    Dedup(column)
  }

  /** `Math.floor(r * 20) + 1` for one cell. */
  function Cell(r: real): (c: int)
    requires IsUnitDraw(r)
    ensures 1 <= c <= 20
  {
    (r * 20.0).Floor + 1
  }

  /**
   * The confusion matrix, one row per label and one column per label,
   * indexed by the positions in `labels`; `draw(i, j)` is the value drawn
   * for the cell of `labels[i]` and `labels[j]`.
   */
  function ConfusionMatrix(labels: seq<string>, draw: (nat, nat) -> real): (m: seq<seq<int>>)
    requires forall i: nat, j: nat :: IsUnitDraw(draw(i, j))
    ensures |m| == |labels|
    ensures forall i :: 0 <= i < |m| ==> |m[i]| == |labels|
    ensures forall i, j :: 0 <= i < |m| && 0 <= j < |m[i]| ==> m[i][j] == Cell(draw(i, j))
    ensures forall i, j :: 0 <= i < |m| && 0 <= j < |m[i]| ==> 1 <= m[i][j] <= 20
  {
    seq(|labels|, (i: int) requires 0 <= i < |labels| =>
      seq(|labels|, (j: int) requires 0 <= j < |labels| => Cell(draw(i, j))))
  }

  /** `2 * (precision * recall) / (precision + recall)` */
  function F1Score(precision: real, recall: real): real
    requires precision + recall != 0.0
  {
    2.0 * (precision * recall) / (precision + recall)
  }

  /** The distance of the harmonic mean from `p`. */
  lemma F1Offset(p: real, r: real)
    requires 0.0 < p && 0.0 < r
    ensures F1Score(p, r) - p == p * (r - p) / (p + r)
  {
    calc {
      F1Score(p, r) - p;
      == 2.0 * (p * r) / (p + r) - p * (p + r) / (p + r);
      == (2.0 * (p * r) - p * (p + r)) / (p + r);
      == (p * r - p * p) / (p + r);
      == p * (r - p) / (p + r);
    }
  }

  /** The sign of `a * d / s` is the sign of `d` when `a` and `s` are positive. */
  lemma SignOfShare(a: real, d: real, s: real)
    requires 0.0 < a && 0.0 < s
    ensures d >= 0.0 ==> a * d / s >= 0.0
    ensures d <= 0.0 ==> a * d / s <= 0.0
  {
    if d >= 0.0 {
      assert a * d >= 0.0;
    } else {
      assert a * d <= 0.0;
    }
  }

  /** The harmonic mean does not depend on the order of its arguments. */
  lemma F1Symmetric(p: real, r: real)
    requires 0.0 < p && 0.0 < r
    ensures F1Score(p, r) == F1Score(r, p)
  {
    assert p * r == r * p && p + r == r + p;
  }

  /** The harmonic mean is at least the smaller of the two values. */
  lemma F1AtLeastSmaller(p: real, r: real)
    requires 0.0 < p <= r
    ensures p <= F1Score(p, r)
  {
    F1Offset(p, r);
    SignOfShare(p, r - p, p + r);
  }

  /** The harmonic mean is at most the larger of the two values. */
  lemma F1AtMostLarger(p: real, r: real)
    requires 0.0 < p <= r
    ensures F1Score(p, r) <= r
  {
    F1Symmetric(p, r);
    F1Offset(r, p);
    SignOfShare(r, p - r, r + p);
  }

  /**
   * f1 is the harmonic mean of precision and recall: it lies between the
   * two.
   */
  lemma F1Between(p: real, r: real)
    requires 0.0 < p && 0.0 < r
    ensures p <= r ==> p <= F1Score(p, r) <= r
    ensures r <= p ==> r <= F1Score(p, r) <= p
  {
    if p <= r {
      F1AtLeastSmaller(p, r);
      F1AtMostLarger(p, r);
    } else {
      F1Symmetric(p, r);
      F1AtLeastSmaller(r, p);
      F1AtMostLarger(r, p);
    }
  }

  /** The simulated evaluation of one run. */
  datatype Metrics = Metrics(accuracy: real, precision: real, recall: real, f1: real)

  /**
   * `0.85 + r * 0.13`, `0.82 + r * 0.15`, `0.80 + r * 0.17` and their f1;
   * each metric lies in its band and f1 between precision and recall.
   */
  function Evaluate(ra: real, rp: real, rr: real): (m: Metrics)
    requires IsUnitDraw(ra) && IsUnitDraw(rp) && IsUnitDraw(rr)
    ensures 0.85 <= m.accuracy < 0.98
    ensures 0.82 <= m.precision < 0.97
    ensures 0.80 <= m.recall < 0.97
    ensures m.precision <= m.recall ==> m.precision <= m.f1 <= m.recall
    ensures m.recall <= m.precision ==> m.recall <= m.f1 <= m.precision
  {
    var precision := 0.82 + rp * 0.15;
    var recall := 0.80 + rr * 0.17;
    F1Between(precision, recall);
    Metrics(0.85 + ra * 0.13, precision, recall, F1Score(precision, recall))
  }

  /** `Math.floor(n * 0.2)`: a fifth of the rows, rounded down. */
  function ValidationCount(n: nat): (v: int)
    ensures v == n / 5
    ensures 0 <= v <= n
  {
    var v := (n as real * 0.2).Floor;
    assert (n / 5) as real <= n as real * 0.2 < (n / 5 + 1) as real;
    v
  }

  /** `45 + Math.floor(r * 60)` seconds. */
  function TrainingTime(r: real): (t: int)
    requires IsUnitDraw(r)
    ensures 45 <= t < 105
  {
    45 + (r * 60.0).Floor
  }

  /** The keys of `featureImportance`, stored as the model's feature names. */
  const FeatureNames: seq<string> :=
    ["s0_mean", "s1_mean", "s2_mean", "s3_mean", "temp_mean", "humidity_mean"]

  /** The injected values of `Math.random()`, in the order the job calls it. */
  datatype TrainingDraws = TrainingDraws(
    accuracy: real, precision: real, recall: real,
    importance: seq<real>,
    confusion: (nat, nat) -> real,
    trainingTime: real)

  ghost predicate WellFormedDraws(d: TrainingDraws)
  {
    IsUnitDraw(d.accuracy) && IsUnitDraw(d.precision) && IsUnitDraw(d.recall)
    && |d.importance| == 6 && (forall i :: 0 <= i < 6 ==> IsUnitDraw(d.importance[i]))
    && (forall i: nat, j: nat :: IsUnitDraw(d.confusion(i, j)))
    && IsUnitDraw(d.trainingTime)
  }

  /** The `ml_models` row the job inserts. */
  datatype TrainedModel = TrainedModel(
    trainingAccuracy: real,
    validationAccuracy: real,
    featureNames: seq<string>,
    targetClasses: seq<string>)

  /** The fields the job writes to the session when it completes. */
  datatype TrainingSummary = TrainingSummary(
    metrics: Metrics,
    trainingDataCount: int,
    validationDataCount: int,
    trainingTime: int,
    featureImportance: ChannelWeights,
    labels: seq<string>,
    confusionMatrix: seq<seq<int>>)

  datatype SessionStatus = Running | Failed | Completed

  /** `progress = 10, 20, ..., 100`: the values the progress loop writes. */
  function ProgressSchedule(): (s: seq<int>)
    ensures |s| == 10 && s[0] == 10 && s[9] == 100
    ensures forall i, j :: 0 <= i < j < |s| ==> s[i] < s[j]
    ensures forall i :: 0 <= i < |s| ==> s[i] == 10 * (i + 1)
  {
    seq(10, i => 10 * (i + 1))
  }

  /** A `training_sessions` row. */
  class TrainingSession {
    var status: SessionStatus
    var progress: int
    /** Every progress value written to the row, in order. */
    var progressUpdates: seq<int>
    var summary: Option<TrainingSummary>
    var completedAt: Option<string>

    /** The row as inserted: running, progress 0. */
    constructor ()
      ensures status == Running && progress == 0 && progressUpdates == [] && summary == None
      ensures completedAt == None
    {
      status := Running;
      progress := 0;
      progressUpdates := [];
      summary := None;
      completedAt := None;
    }

    /** `update({ status: 'failed', progress: 0 })` */
    method Fail()
      modifies this
      ensures status == Failed && progress == 0
      ensures progressUpdates == old(progressUpdates) && summary == old(summary)
      ensures completedAt == old(completedAt)
    {
      status := Failed;
      progress := 0;
    }

    /** The progress loop: writes 10, 20, ..., 100 in turn. */
    method RunProgressSchedule()
      modifies this
      ensures progressUpdates == old(progressUpdates) + ProgressSchedule()
      ensures progress == 100
      ensures status == old(status) && summary == old(summary) && completedAt == old(completedAt)
    {
      var p := 10;
      while p <= 100
        invariant 10 <= p <= 110 && p % 10 == 0
        invariant progressUpdates == old(progressUpdates) + ProgressSchedule()[..p / 10 - 1]
        invariant p > 10 ==> progress == p - 10
        invariant status == old(status) && summary == old(summary) && completedAt == old(completedAt)
        decreases 110 - p
      {
        progress := p;
        assert ProgressSchedule()[..p / 10] == ProgressSchedule()[..p / 10 - 1] + [p];
        progressUpdates := progressUpdates + [p];
        p := p + 10;
      }
      assert ProgressSchedule()[..10] == ProgressSchedule();
    }

    /** The final update: completed at 100 with the summary and the completion time. */
    method Complete(s: TrainingSummary, now: string)
      modifies this
      ensures status == Completed && progress == 100 && summary == Some(s)
      ensures completedAt == Some(now)
      ensures progressUpdates == old(progressUpdates)
    {
      status := Completed;
      progress := 100;
      summary := Some(s);
      completedAt := Some(now);
    }
  }

  /** The summary of a run over non-empty readings, as a function of the draws. */
  function Summarise(readings: seq<TrainingReading>, draws: TrainingDraws): (s: TrainingSummary)
    requires WellFormedDraws(draws)
    ensures s.trainingDataCount == |readings|
    ensures 0 <= s.validationDataCount <= s.trainingDataCount
    ensures 45 <= s.trainingTime < 105
    ensures |s.confusionMatrix| == |s.labels|
    ensures forall i :: 0 <= i < |s.labels| ==> |s.confusionMatrix[i]| == |s.labels|
    ensures NoDuplicates(s.labels)
    ensures s.labels == DistinctLabels(FeatureRows(readings))
    ensures s.metrics == Evaluate(draws.accuracy, draws.precision, draws.recall)
    ensures s.validationDataCount == ValidationCount(|readings|)
    ensures s.trainingTime == TrainingTime(draws.trainingTime)
    ensures s.featureImportance == DrawWeights(draws.importance)
    ensures s.confusionMatrix == ConfusionMatrix(s.labels, draws.confusion)
  {
    var rows := FeatureRows(readings);
    var labels := DistinctLabels(rows);
    TrainingSummary(
      Evaluate(draws.accuracy, draws.precision, draws.recall),
      |rows|,
      ValidationCount(|rows|),
      TrainingTime(draws.trainingTime),
      DrawWeights(draws.importance),
      labels,
      ConfusionMatrix(labels, draws.confusion))
  }

  /**
   * The training job. A data error (`data` is `None`) or no readings marks
   * the session failed at progress 0 and creates no model; otherwise the
   * progress schedule runs and the session completes with the summary, and
   * the model records the accuracies and the distinct labels.
   */
  method TrainModel(session: TrainingSession, data: Option<seq<TrainingReading>>, draws: TrainingDraws,
                    now: string)
    returns (model: Option<TrainedModel>)
    requires WellFormedDraws(draws)
    modifies session
    ensures model.None? <==> data.None? || |data.value| == 0
    ensures model.None? ==>
              session.status == Failed && session.progress == 0
              && session.progressUpdates == old(session.progressUpdates)
              && session.summary == old(session.summary)
              && session.completedAt == old(session.completedAt)
    ensures model.Some? ==>
              var s := Summarise(data.value, draws);
              && session.status == Completed && session.progress == 100
              && session.progressUpdates == old(session.progressUpdates) + ProgressSchedule()
              && session.summary == Some(s)
              && session.completedAt == Some(now)
              && model.value == TrainedModel(s.metrics.accuracy, s.metrics.accuracy * 0.95,
                                             FeatureNames, s.labels)
  {
    if data.None? || |data.value| == 0 {
      session.Fail();
      return None;
    }
    var s := Summarise(data.value, draws);
    session.RunProgressSchedule();
    model := Some(TrainedModel(s.metrics.accuracy, s.metrics.accuracy * 0.95, FeatureNames, s.labels));
    session.Complete(s, now);
  }

  /** The validation accuracy of a trained model is 95 % of its training accuracy, so it is lower. */
  lemma ValidationAccuracyBelowTraining(readings: seq<TrainingReading>, draws: TrainingDraws)
    requires WellFormedDraws(draws)
    ensures var s := Summarise(readings, draws);
            0.8 < s.metrics.accuracy * 0.95 < s.metrics.accuracy
  {
  }
}
